=== FILE: README.md ===
# Story adventure graph: rules, conditions and the scene editor in Dafny

The story adventure graph editor shows a text adventure's transition rules as
an RDF graph. A rule leads from one scene to another. It has a weight and a
list of conditions `(name, operator, value)`, all of which must hold. This
project models the logic at the centre of the editor as pure functions over
immutable data, and proves what that logic promises:

- **The condition codec** (`ConditionCodec`). A condition travels through the
  graph as one literal `"<name> <symbol> <value>"` typed `RuleCondition`. The
  five operators `EQ GT GE LT LE` are written as `= > >= < <=`, and any other
  operator or symbol passes through unchanged. The decoder splits the text
  into exactly three whitespace-free fields. The round trip is proved in both
  directions: it holds exactly when the name is one whitespace-free field and
  the operator survives being written.
- **The quad projection** (`SceneQuads`). `makeSceneSchema` declares the
  scene class. `rulesIntoQuads` emits, in order:
  - one type quad per distinct scene;
  - then, for each rule, a `to` quad;
  - then a weight quad unless the weight is one;
  - then one condition quad per condition. The weight and condition quads
    are about the quoted `to` quad, in RDF-star style.

  Besides counting and ordering facts, the model has a reader, `ReadRules`,
  that inverts the projection: reading a projection back gives the rule list
  unchanged.
- **The condition field of the relation form** (`ConditionInput`).
  - `parseCondition` fills the form from a literal.
  - `buildCondition` validates the name grammar first, then the number.
  - The field commits a value to the form only when validation built a
    condition.
  - When the form hands it a value, the field keeps its local state if that
    value is the one it shows, and re-parses otherwise.

  A consistency invariant is proved to survive every sequence of edits and
  incoming values.
- **The editor rules** (`SceneMetadata`):
  - which entities and relations may be edited;
  - which types may be created;
  - the random id of a new entity;
  - which connections are offered;
  - the properties of a `to` relation.

  Lemmas tie these rules to each other and to the projection.
- **Committing the pending edits** (`AuthoringCommit` over `Workspace`). The
  relation changes are written first, then deleted relations leave the
  canvas. Entity changes come next, then deleted entities leave the canvas.
  Finally the pending edits are cleared. Every recorded change is proved to
  be applied, as long as no change reads a key that another one writes. The diagram is modelled as canvas
  items that show either a single datum or a group of data.

Supporting modules:
- `Wrappers`: `Option` and `Result`.
- `Text`: whitespace runs, trimming and decimal digits.
- `JsNumber`: the numbers `String()` and `Number()` exchange.
- `Rdf`: terms and quads.
- `Vocabulary`: the IRIs.
- `Sequences`: deduplication and filtering.

## Model

Helper functions that only compute (the field scan, the digit reader, the
canvas id filter and the like) have no row of their own: the lemma rows that
cite the same lines state what they compute.

| member | source | states |
|---|---|---|
| `ConditionCodec.SymbolOf` | src/model/sceneRules.ts:80-87 | each of the five operator names is written as one of the five symbols (which one: `OperatorTable`); any other operator is written unchanged |
| `ConditionCodec.OperatorOf` | src/model/sceneRules.ts:107-114 | each of the five symbols is read as the operator name written with that symbol (which one: `OperatorTable`); any other text is kept unchanged |
| `ConditionCodec.OperatorTable` | src/model/sceneRules.ts:80-114 | `EQ`, `GT`, `GE`, `LT` and `LE` are written `=`, `>`, `>=`, `<` and `<=`, and each of these symbols is read back as its operator |
| `ConditionCodec.OperatorMapsInverse` | src/model/sceneRules.ts:107-114 | on the five operators and the five symbols, writing and reading are mutually inverse |
| `ConditionCodec.EncodableIff` | src/model/sceneRules.ts:80-114 | an operator survives being written and read back exactly when it is one of the five names, or a whitespace-free string that is not one of the five symbols |
| `ConditionCodec.DecodedOperatorIsEncodable` | src/model/sceneRules.ts:104-114 | every operator the decoder produces from a field survives being written and read back |
| `ConditionCodec.Serialize` | src/model/sceneRules.ts:88-91 | the condition literal is a typed literal whose datatype is `RuleCondition` |
| `ConditionCodec.SerializeFields` | src/model/sceneRules.ts:88-91 | the literal's text splits into the name, the operator's symbol and the rendered value, given a whitespace-free name and symbol |
| `ConditionCodec.SplitFieldsSound` | src/model/sceneRules.ts:97 | what the field scan returns is three non-empty whitespace-free fields that, with whitespace runs between them, make up the whole text |
| `ConditionCodec.SplitFieldsComplete` | src/model/sceneRules.ts:97 | every such split of the text is the one the scan returns, so the split is unique and the scan accepts exactly the texts the pattern matches |
| `ConditionCodec.Deserialize` | src/model/sceneRules.ts:94-117 | a decoded condition has a whitespace-free name and an operator that survives the round trip; failure is the malformed-expression error about that literal |
| `ConditionCodec.DeserializeSpec` | src/model/sceneRules.ts:97-116 | decoding fails exactly when the text is not three whitespace-separated fields; otherwise it returns those fields with the symbol mapped back and the value read as a number, checking neither the datatype nor the name nor the number |
| `ConditionCodec.RoundTrip` | src/model/sceneRules.ts:76-117 | decoding an encoded condition gives it back exactly when its name is one whitespace-free field and its operator survives being written |
| `ConditionCodec.RoundTripOperator` | src/model/sceneRules.ts:76-117 | with a whitespace-free name, every one of the five operators round-trips with any value |
| `JsNumber.Parse` | src/model/sceneRules.ts:115 | blank text is zero; an optionally signed decimal integer is read as its value; `Infinity`, `+Infinity` and `-Infinity` are the infinities; the result is NaN exactly when the trimmed text is none of these |
| `JsNumber.RenderIsToken` | src/model/sceneRules.ts:89 | a rendered number is non-empty and has no whitespace, so it forms one field of the condition text |
| `JsNumber.ParseRender` | src/model/sceneRules.ts:115 | reading back a rendered number gives the same number, NaN and the infinities included |
| `Text.TrimOfNoWs` | src/model/sceneRules.ts:115 | trimming text without whitespace leaves it unchanged |
| `Vocabulary.PropertiesDistinct` | src/model/vocabulary.ts:3-11 | the `to`, weight, condition and type properties are pairwise different IRIs |
| `SceneQuads.MakeSceneSchema` | src/model/sceneRules.ts:5-16 | the schema is exactly one quad, declaring `Scene` an `rdfs:Class` |
| `SceneQuads.SceneIdOf` | src/model/sceneRules.ts:45 | a node read as a scene id is the scene node of that id |
| `SceneQuads.SceneIri` | src/model/sceneRules.ts:56-60 | a scene node's IRI is the `scene:` prefix of the application namespace followed by the scene id |
| `SceneQuads.SceneIdOfSceneIri` | src/model/sceneRules.ts:45 | the scene id is read back from its scene node |
| `SceneQuads.SceneIriInjective` | src/model/sceneRules.ts:56-60 | two scene ids get the same node IRI exactly when they are equal |
| `SceneQuads.Endpoints` | src/model/sceneRules.ts:34-38 | the collected ids are the current and then the result scene of each rule, in rule order, two per rule |
| `SceneQuads.WeightQuadReadsBack` | src/model/sceneRules.ts:62-66 | the weight quad is about the quoted `to` quad, uses the weight property, and holds an `xsd:double` literal whose text reads back as the weight |
| `SceneQuads.WeightQuadAsWrittenIsTagged` | src/model/sceneRules.ts:64 | as written, the weight quad equals the corrected one except that its object is a language-tagged string tagged with the `xsd:double` IRI, so it is not a typed literal |
| `SceneQuads.ConditionQuadDecodes` | src/model/sceneRules.ts:67-70 | a condition quad is about the quoted `to` quad, uses the condition property, and holds a `RuleCondition` literal that decodes back to the condition exactly when the codec can carry it |
| `SceneQuads.RulesIntoQuads` | src/model/sceneRules.ts:31-74 | the output length is the number of distinct scenes plus, per rule, one `to` quad, one weight quad if the weight is not one, and one quad per condition |
| `SceneQuads.RuleBlockHead` | src/model/sceneRules.ts:55-61 | a rule's quads start with its `to` quad, and there are one plus one per condition, plus one if the weight is not one |
| `SceneQuads.RuleBlockWeight` | src/model/sceneRules.ts:62-66 | the weight quad is among a rule's quads exactly when the weight is not one, and then right after the `to` quad |
| `SceneQuads.RuleBlockConditions` | src/model/sceneRules.ts:67-70 | a rule's last quads are its condition quads, one per condition, in condition order |
| `SceneQuads.ConditionQuadsAboutIndex` | src/model/sceneRules.ts:67-70 | the k-th condition quad is about the quoted `to` quad and carries the encoded k-th condition |
| `SceneQuads.AttachedAbout` | src/model/sceneRules.ts:62-70 | the weight and condition quads have the quoted `to` quad as subject, and no quad of a rule is a type quad |
| `SceneQuads.RuleQuadsAreNotTypeQuads` | src/model/sceneRules.ts:55-71 | no quad emitted for the rules is a type quad |
| `SceneQuads.ToQuadsComeFromRules` | src/model/sceneRules.ts:55-61 | every `to` quad emitted for the rules is the `to` quad of one of the rules |
| `SceneQuads.RuleQuadsOfConcat` | src/model/sceneRules.ts:55-71 | the rule loop emits the quads of a concatenation of rule lists as the two lists' quads one after the other |
| `SceneQuads.TypeQuadsFirst` | src/model/sceneRules.ts:43-49 | the output starts with one type quad per distinct scene, in order of first mention, and no later quad is a type quad |
| `SceneQuads.TypeQuadsExactlyOnce` | src/model/sceneRules.ts:34-49 | a scene's type quad occurs exactly once if some rule mentions the scene, and never otherwise |
| `SceneQuads.EndpointTyped` | src/model/sceneRules.ts:34-49 | every scene that a rule mentions has its type quad in the output |
| `SceneQuads.RuleEndpointsAreTyped` | src/model/sceneRules.ts:43-61 | both ends of every `to` quad are typed as scenes in the same output |
| `SceneQuads.RuleBlockPosition` | src/model/sceneRules.ts:55-71 | the quads of the j-th rule come right after those of the rules before it and right before those of the rules after it |
| `SceneQuads.SchemaClassTypesAllScenes` | src/model/sceneRules.ts:41-47 | every type quad in the output types its node with the class that the schema declares |
| `SceneQuads.ReadConditionsOfQuads` | src/model/sceneRules.ts:67-70 | the condition quads of a rule read back as its condition list, if every condition survives the codec |
| `SceneQuads.ReadRuleOfBlock` | src/model/sceneRules.ts:56-70 | a rule is read back from its `to` quad and the quads about it; an absent weight quad reads as weight one |
| `SceneQuads.ReadBlocksOfRuleQuads` | src/model/sceneRules.ts:55-71 | the quads of the rule loop read back as the rule list |
| `SceneQuads.ProjectionRoundTrip` | src/model/sceneRules.ts:31-74 | the projection loses nothing: reading it back gives the rule list, scene ids, weights and conditions included, if every condition survives the codec |
| `SceneQuads.RulesIntoQuadsAsWritten` | src/model/sceneRules.ts:31-74 | the projection as written, with the language-tagged weight literal, has as many quads as the corrected one |
| `SceneQuads.AsWrittenAgreesWithoutWeights` | src/model/sceneRules.ts:62-66 | when every weight is one no weight quad is emitted, and the projection as written equals the corrected one |
| `SceneQuads.AsWrittenUnreadableWithWeights` | src/model/sceneRules.ts:62-66 | as written, a rule list with any weight other than one projects to quads that cannot be read back as rules at all |
| `ConditionInput.ConditionNameIsToken` | src/components/RuleConditionInput.tsx:111 | a name matching `^[a-z0-9_]+$` is one whitespace-free field, so it survives the codec |
| `ConditionInput.ParseCondition` | src/components/RuleConditionInput.tsx:81-108 | a literal the decoder accepts fills the fields from the decoded condition, with no message; one it rejects, or a named node, gives empty fields, operator `EQ` and the matching message; the operator shown always survives the codec |
| `ConditionInput.BuildCondition` | src/components/RuleConditionInput.tsx:110-135 | a bad name gives the name message first, and a bad number after it; a failure keeps the literal and the fields; success builds the condition, sets the literal to its encoding and clears the message; the fields never change |
| `ConditionInput.BuildIdempotent` | src/components/RuleConditionInput.tsx:110-135 | validating a second time changes nothing |
| `ConditionInput.ParseBuilt` | src/components/RuleConditionInput.tsx:81-135 | parsing what a successful build produced gives back the built condition, the same name and operator, and the number rendered canonically |
| `ConditionInput.RebuildParsed` | src/components/RuleConditionInput.tsx:81-135 | rebuilding a parsed literal with a valid name and a finite number gives the same condition, encoded canonically |
| `ConditionInput.UpdateCondition` | src/components/RuleConditionInput.tsx:20-26 | the field shows the validated edit; the form's value changes only when a condition was built, and then becomes that condition's encoding; a failed edit keeps the value and shows a message |
| `ConditionInput.Resync` | src/components/RuleConditionInput.tsx:13-18 | the field then holds and shows the incoming value; a value equal to the literal already shown keeps the local edits, and any other value is parsed afresh |
| `ConditionInput.Mount` | src/components/RuleConditionInput.tsx:12 | the first render holds the form's value and is consistent: the literal shown is that value, a message is shown exactly when no condition is built, a built condition is what the value decodes to, and the operator shown survives the codec |
| `ConditionInput.ApplyEdit` | src/components/RuleConditionInput.tsx:36-59 | an edit of an input sets that input's text and leaves the other inputs, the literal, the built condition and the message alone; an operator picked from the selector always survives the codec |
| `ConditionInput.UpdateConsistent` | src/components/RuleConditionInput.tsx:20-60 | every edit of the name, the operator or the value keeps the field consistent |
| `ConditionInput.ResyncConsistent` | src/components/RuleConditionInput.tsx:13-18 | every incoming value keeps the field consistent |
| `ConditionInput.RunConsistent` | src/components/RuleConditionInput.tsx:12-60 | every sequence of edits and incoming values keeps the field consistent |
| `ConditionInput.FailedEditKeepsValue` | src/components/RuleConditionInput.tsx:20-26 | an edit that fails validation leaves the form's value as it was, and the field shows a message |
| `ConditionInput.EchoKeepsEdits` | src/components/RuleConditionInput.tsx:13-26 | when the form echoes back the value the field just committed, the field keeps what the user typed |
| `SceneMetadata.CanModifyEntity` | src/model/metadataProvider.ts:12-19 | an entity may be renamed, edited and deleted exactly when it is a scene; otherwise none of these |
| `SceneMetadata.CanModifyRelation` | src/model/metadataProvider.ts:20-27 | a relation may be retyped, edited and deleted exactly when it is a `to` relation; otherwise none of these |
| `SceneMetadata.FilterConstructibleTypes` | src/model/metadataProvider.ts:28-30 | the constructible types are the requested types intersected with the scene type; the result is empty exactly when the scene type was not requested |
| `SceneMetadata.RandomSuffix` | src/model/metadataProvider.ts:32 | the digits after the leading one of the draw are five decimal digits, worth the draw minus 100000 |
| `SceneMetadata.NewLocalIdShape` | src/model/metadataProvider.ts:32 | a new local id is `scene` followed by exactly five digits, and different draws give different ids |
| `SceneMetadata.CreateEntity` | src/model/metadataProvider.ts:31-40 | a new entity is always a scene without properties, whatever type was asked for; its IRI says `scene:` when a scene was asked for and `entity:` otherwise |
| `SceneMetadata.CanConnect` | src/model/metadataProvider.ts:41-56 | a connection is offered exactly when the source is a scene, the target is absent or a scene, and the link type is absent, empty or `to`; the offer is the single scene-to-scene `to` connection |
| `SceneMetadata.GetRelationShape` | src/model/metadataProvider.ts:57-74 | a `to` relation has the weight property, `xsd:double` literals, and the condition property, `RuleCondition` literals; any other relation has no properties |
| `SceneMetadata.CreatedEntityIsUsable` | src/model/metadataProvider.ts:12-56 | a created entity can be edited and deleted, can be connected to another created entity, and has a type the editor lets users create |
| `SceneMetadata.ConnectionsAreEditable` | src/model/metadataProvider.ts:12-74 | whatever a connection offers can be edited afterwards: the source and any chosen target are editable, and every offered link type is editable and has the weight and condition properties |
| `SceneMetadata.ShapeIffEditable` | src/model/metadataProvider.ts:20-74 | a relation has properties exactly when it can be edited |
| `SceneMetadata.ShapesDescribeProjection` | src/model/metadataProvider.ts:57-74 | the projection's `to` quads have the editable link type, and their weight and condition quads use the two shaped properties with literals of the shaped datatypes |
| `SceneMetadata.WeightAsWrittenMissesShape` | src/model/sceneRules.ts:62-66 | the weight literal as built carries the `xsd:double` IRI as a language tag, so it never equals the `xsd:double` literal that the weight shape describes |
| `SceneMetadata.WeightTwoIsLanguageTagged` | src/model/sceneRules.ts:64 | for a rule of weight two, the weight quad as built holds the language-tagged literal `"2"@<xsd:double IRI>` |
| `Workspace.ChangeDataSpec` | src/model/applyAuthoringState.ts:11 | changing the data stored under a key keeps every canvas item in place with its id, kind and group size, and replaces a datum exactly when its key matches |
| `Workspace.ChangeDataLeavesOnlyNext` | src/model/applyAuthoringState.ts:11 | after a change, every datum stored under the key is the new data |
| `Workspace.ChangeDataAbsentKey` | src/model/applyAuthoringState.ts:36-43 | a change under a key that nothing is stored under changes nothing |
| `Workspace.RemovedIds` | src/model/applyAuthoringState.ts:15-20 | the ids marked for removal are exactly those of the single items whose datum is deleted |
| `Workspace.PruneGroupSpec` | src/model/applyAuthoringState.ts:21-27 | a group keeps its id and holds its non-deleted members in their original order; single items, and groups without deleted members, are untouched |
| `Workspace.Prune` | src/model/applyAuthoringState.ts:15-32 | after removal, no single item shows deleted data and no group holds a deleted member; every surviving item is an input item, a group without its deleted members; there are no more items than before |
| `Workspace.PruneUnique` | src/model/applyAuthoringState.ts:15-32 | with unique canvas ids, removal drops exactly the single items that show deleted data, and keeps every pruned group (even an empty one) and every other item, in their original order |
| `Workspace.PruneKeepsGroupsAndLive` | src/model/applyAuthoringState.ts:15-32 | with unique canvas ids, every group survives with its non-deleted members, and so does every single item whose datum is not deleted |
| `Workspace.PruneOfLive` | src/model/applyAuthoringState.ts:15-32 | items that show no deleted data are left exactly as they are |
| `Workspace.PruneShowsWritten` | src/model/applyAuthoringState.ts:15-32 | with unique canvas ids, data written in place that is not itself deleted survives removal: a single item that held a changed datum shows the new data, and a group that held one still holds it |
| `Workspace.ChangeDataWrites` | src/model/applyAuthoringState.ts:11 | a change writes its data in place wherever a datum under its key was stored |
| `Workspace.WrittenAtAfterChange` | src/model/applyAuthoringState.ts:9-13 | a later change under a key other than that of the written data does not overwrite it |
| `Workspace.WrittenAtBeforeChange` | src/model/applyAuthoringState.ts:9-13 | an earlier change under another key leaves the data stored under a key where it was |
| `Workspace.PruneIdempotent` | src/model/applyAuthoringState.ts:15-32 | removing deleted data a second time changes nothing |
| `AuthoringCommit.FindEvent` | src/model/applyAuthoringState.ts:18 | the lookup finds nothing exactly when no event is recorded under the key, and otherwise returns the first event recorded under it |
| `AuthoringCommit.IsDeletedRelation` | src/model/applyAuthoringState.ts:18 | a relation is pending deletion exactly when the event recorded under its key deletes it, or one of its ends is an entity pending deletion |
| `AuthoringCommit.IsDeletedEntity` | src/model/applyAuthoringState.ts:50 | an entity is pending deletion exactly when the event recorded under its IRI deletes it |
| `AuthoringCommit.ChangedEntity` | src/model/applyAuthoringState.ts:36-43 | an entity change writes the new data under the new IRI when one is given, and under the data's own IRI otherwise |
| `AuthoringCommit.ApplyAuthoringState` | src/model/applyAuthoringState.ts:4-68 | after the commit no link or element shows data pending deletion (for a relation, also one attached to an entity pending deletion), no group holds such a member, and the pending edits are empty |
| `AuthoringCommit.ChangeRelationsOfConcat` | src/model/applyAuthoringState.ts:9-13 | relation changes apply one after another in recorded order |
| `AuthoringCommit.ChangeEntitiesOfConcat` | src/model/applyAuthoringState.ts:34-45 | entity changes apply one after another in recorded order |
| `AuthoringCommit.ChangeRelations` | src/model/applyAuthoringState.ts:9-13 | relation changes never move, add or remove a canvas item, nor change its kind or canvas id |
| `AuthoringCommit.ChangeEntities` | src/model/applyAuthoringState.ts:34-45 | entity changes never move, add or remove a canvas item, nor change its kind or canvas id |
| `AuthoringCommit.LastRelationChangeApplied` | src/model/applyAuthoringState.ts:9-13 | after the last recorded relation change, every relation stored under its old key holds its new data |
| `AuthoringCommit.LastEntityChangeApplied` | src/model/applyAuthoringState.ts:34-45 | after the last recorded entity change, every entity stored under its old IRI holds the new data, under the new IRI when one is given |
| `AuthoringCommit.RelationChangeApplied` | src/model/applyAuthoringState.ts:9-13 | when no two relation changes share a key and none writes under a key a later one reads, every change is applied, not only the last: wherever a relation under its old key was shown, its new data is shown after all the changes |
| `AuthoringCommit.EntityChangeApplied` | src/model/applyAuthoringState.ts:34-45 | when no two entity changes share an IRI and none writes under an IRI a later one reads, every change is applied: wherever the entity under its old IRI was shown, the changed entity is shown after all the changes, under its new IRI if one was given |
| `AuthoringCommit.RelationWrittenKept` | src/model/applyAuthoringState.ts:9-13 | relation changes none of which reads the key of some written data leave that data where it was written |
| `AuthoringCommit.EntityWrittenKept` | src/model/applyAuthoringState.ts:34-45 | entity changes none of which reads the IRI of some written data leave that data where it was written |
| `AuthoringCommit.CommitAppliesRelationChange` | src/model/applyAuthoringState.ts:9-32 | with unique canvas ids and such independent changes, after the commit each single link that showed a changed relation shows its new data, and each group that held one still holds the new data, unless that data is pending deletion |
| `AuthoringCommit.CommitAppliesEntityChange` | src/model/applyAuthoringState.ts:34-64 | with unique canvas ids and such independent changes, after the commit each single element that showed a changed entity shows the changed entity, and each group that held one still holds it, unless the changed entity is pending deletion |
| `AuthoringCommit.CommitKeepsEverythingElse` | src/model/applyAuthoringState.ts:9-64 | with unique canvas ids, the committed links and elements are the changed ones without the single items showing deleted data, with every group kept and its deleted members filtered out, in the original order (the program also drops link groups attached to a removed element; see Left out) |
| `AuthoringCommit.CommitKeepsGroupsAndLiveItems` | src/model/applyAuthoringState.ts:15-64 | with unique canvas ids, every group survives the commit with its members that are not pending deletion, and so does every single item whose data is not pending deletion (except, in the program, link groups attached to a removed element; see Left out) |
| `AuthoringCommit.CommitEmpty` | src/model/applyAuthoringState.ts:4-67 | committing with nothing pending leaves the diagram as it is |
| `AuthoringCommit.CommitTwice` | src/model/applyAuthoringState.ts:66 | the pending edits are cleared, so a second commit right after the first changes nothing |

## Left out

- JsNumber.Parse: reads only optionally signed decimal integers, blank text and the spelled-out infinities; decimal fractions, exponents and hexadecimal, binary (`0b`) and octal (`0o`) literals, which `Number()` also reads, give NaN here. A decimal integer is read exactly, while `Number()` rounds it to the nearest double past 2^53 (`9007199254740993` reads as `9007199254740992`) and gives `Infinity` beyond the double range (about 1.8e308). The model is integral because floating point is outside it.
- JsNumber.Render: writes integers in plain decimal; the exponent notation `String()` uses for very large magnitudes, and negative zero, are not modelled.
- ConditionInput.BuildCondition: its number check uses the integral `Parse`, so a value such as `1.5` fails validation in the model where the editor would accept it. In the other direction, a digit string beyond the double range (a `1` followed by 400 zeros) builds a condition in the model, while `Number()` gives `Infinity` there and the editor shows the invalid-number message; a long integer that `Number()` rounds is built with its exact value.
- ConditionCodec.ErrorMessage: the decoder's message is built from the literal's text. The library's `termToString` rendering of the literal (quotes, datatype) is not modelled.
- The JSX of the condition field: labels, the `<select>` options and the validation message display. Edits are modelled as the three input events. The `<select>` only offers the five operators, so an operator edit is one of them.
- `src/components/App.tsx` and `src/components/MainMenu.tsx`: loading, saving, layout and file I/O. They are callers, not part of this model.
- Undo history and batching (`startBatch`, `history.execute`, `batch.store`): the commit is modelled as the resulting diagram. The mix of the model's history and the batch's history is not modelled.
- `Math.random`: the random number is the `draw` parameter, an integer in [100000, 200000), which is what `Math.floor(100000 * (1 + Math.random()))` yields.
- SceneMetadata.CreateEntity: the namespace of new IRIs is the `prefix` parameter. The source writes `app.$namespace`, which the vocabulary object does not define, so the model does not claim it equals the projection's namespace.
- Library commands that are not part of this code base:
  - `changeRelationData` and `changeEntityData` are modelled as "replace the data stored under this key" (`Workspace.ChangeData`).
  - `isDeletedRelation` and `isDeletedEntity` look up the pending edits by key (`AuthoringCommit.FindEvent`). As in the library, a relation also counts as deleted when one of its ends is an entity pending deletion. The library's source is not part of this model.
  - Renaming an entity's IRI does not also rewrite the relations that point at it.
- Added entities and relations: the commit ignores them, as the source does. They are already on the canvas.
- SceneQuads.ReadRules: the reader is not a function of the source. ReadRules inverts the projection, which shows that the projection keeps every rule field.
- SceneQuads.RulesIntoQuads: emits the corrected weight literal, typed `xsd:double` (`SceneQuads.WeightQuad`), not the language-tagged literal the source builds. The projection as written is `SceneQuads.RulesIntoQuadsAsWritten`; it agrees with `RulesIntoQuads` when every weight is one, and cannot be read back otherwise (see Findings).
- AuthoringCommit.RelationChangeApplied: proved only for changes that do not interfere, meaning no two changes share a key and no change writes under a key that a later change reads. With interfering changes the outcome depends on their order, and the model promises nothing about it beyond `LastRelationChangeApplied`.
- AuthoringCommit.EntityChangeApplied: likewise proved only for entity changes that do not interfere through their old and new IRIs.
- AuthoringCommit.CommitKeepsEverythingElse and AuthoringCommit.CommitKeepsGroupsAndLiveItems: removing an element (`model.removeElement`, applyAuthoringState.ts:63) also removes every canvas link attached to it. Canvas links in the model carry no end elements, so the model does not follow this cascade. A relation group on a removed element has every member filtered out, because each member has the deleted entity as an end. The program then removes the group, but the model keeps it as an empty group. Single links on a removed element are not affected, because they already count as deleted relations and were removed in the link pass.

## Findings

| source | as written | input that shows it | evidently intended | confidence | as-written member | corrected member |
|---|---|---|---|---|---|---|
| src/model/sceneRules.ts:64 | the weight literal is built as `factory.literal(String(rule.weight), xsd.double)`. The second argument is a plain string, and in the RDF/JS data model a string there is a language tag. The result is a language-tagged string whose tag is the `xsd:double` IRI, with no datatype. | the rule `a → b` with weight 2 gives `"2"@<xsd:double IRI>` instead of `"2"^^xsd:double` | a literal of datatype `xsd:double`: `factory.literal(String(rule.weight), factory.namedNode(xsd.double))`. This is what the weight shape in `metadataProvider.ts:60-65` describes, and what the condition literal at `sceneRules.ts:88-91` does. | not executed; high that a language tag results under the RDF/JS factory contract | `SceneQuads.RulesIntoQuadsAsWritten` with `SceneQuads.AsWrittenUnreadableWithWeights`; `SceneMetadata.WeightAsWrittenMissesShape` (on `SceneQuads.WeightQuadAsWritten`); `SceneMetadata.WeightTwoIsLanguageTagged` | `SceneQuads.WeightQuad`, used by `SceneQuads.RulesIntoQuads`; `SceneQuads.ProjectionRoundTrip`; `SceneMetadata.ShapesDescribeProjection` |

=== FILE: apply_authoring_state.dfy ===
/**
  Committing the pending edits of the editor to the diagram: relation changes
  are written first, then deleted relations are taken off the canvas, then
  entity changes are written, then deleted entities are taken off the canvas,
  and the pending edits are cleared.
*/
module AuthoringCommit {
  import opened Wrappers
  import opened Sequences
  import opened Workspace

  datatype LinkEvent =
    | RelationAdd(data: RelationData)
    | RelationChange(before: RelationData, data: RelationData)
    | RelationDelete(data: RelationData)

  datatype ElementEvent =
    | EntityAdd(data: EntityData)
    | EntityChange(before: EntityData, data: EntityData, newIri: Option<string>)
    | EntityDelete(data: EntityData)

  /** The pending edits: one event per entity IRI and per relation key, in
      the order they were first recorded. The library keeps them in maps, so
      a key never occurs twice; the model does not demand this. Should a key
      repeat, FindEvent reads its first entry, while ChangeRelations and
      ChangeEntities apply every entry in order. */
  datatype AuthoringState = AuthoringState(elements: seq<(string, ElementEvent)>, links: seq<(RelationKey, LinkEvent)>)

  const Empty: AuthoringState := AuthoringState([], [])

  /** Entry `i` is the first one recorded under `k`. */
  ghost predicate FirstUnder<K, E>(entries: seq<(K, E)>, k: K, i: int) {
    0 <= i < |entries| && entries[i].0 == k && forall h | 0 <= h < i :: entries[h].0 != k
  }

  /** The event recorded under `k`, if any: the first one. */
  function FindEvent<K(==), E>(entries: seq<(K, E)>, k: K): (r: Option<E>)
    ensures r.None? <==> forall i | 0 <= i < |entries| :: entries[i].0 != k
    ensures r.Some? ==> exists i :: FirstUnder(entries, k, i) && r.value == entries[i].1
  {
    if entries == [] then None
    else if entries[0].0 == k then Some(entries[0].1)
    else
      var r := FindEvent(entries[1..], k);
      assert forall i | 1 <= i < |entries| :: entries[i] == entries[1..][i - 1];
      assert r.Some? ==> exists i :: FirstUnder(entries, k, i) && r.value == entries[i].1 by {
        if r.Some? {
          var i :| FirstUnder(entries[1..], k, i) && r.value == entries[1..][i].1;
          assert FirstUnder(entries, k, i + 1);
        }
      }
      r
  }

  /** There is only one first entry under a key. */
  lemma FirstUnderUnique<K, E>(entries: seq<(K, E)>, k: K, i: int, j: int)
    requires FirstUnder(entries, k, i) && FirstUnder(entries, k, j)
    ensures i == j
  {
  }

  /** Whether the relation with this datum's key is pending deletion: the
      event recorded under its key deletes it, or one of its ends is an
      entity pending deletion. */
  function IsDeletedRelation(s: AuthoringState, d: RelationData): (deleted: bool)
    ensures deleted <==>
      || (exists i :: FirstUnder(s.links, KeyOf(d), i) && s.links[i].1.RelationDelete?)
      || IsDeletedEntity(s, d.source) || IsDeletedEntity(s, d.target)
  {
    var ev := FindEvent(s.links, KeyOf(d));
    assert ev.Some? && ev.value.RelationDelete? <==> exists i :: FirstUnder(s.links, KeyOf(d), i) && s.links[i].1.RelationDelete? by {
      if i :| FirstUnder(s.links, KeyOf(d), i) && s.links[i].1.RelationDelete? {
        var j :| FirstUnder(s.links, KeyOf(d), j) && ev.value == s.links[j].1;
        FirstUnderUnique(s.links, KeyOf(d), i, j);
      }
    }
    (ev.Some? && ev.value.RelationDelete?) || IsDeletedEntity(s, d.source) || IsDeletedEntity(s, d.target)
  }

  /** Whether the entity with this IRI is pending deletion: the event
      recorded under its IRI deletes it. */
  function IsDeletedEntity(s: AuthoringState, iri: string): (deleted: bool)
    ensures deleted <==> exists i :: FirstUnder(s.elements, iri, i) && s.elements[i].1.EntityDelete?
  {
    var ev := FindEvent(s.elements, iri);
    assert ev.Some? && ev.value.EntityDelete? <==> exists i :: FirstUnder(s.elements, iri, i) && s.elements[i].1.EntityDelete? by {
      if i :| FirstUnder(s.elements, iri, i) && s.elements[i].1.EntityDelete? {
        var j :| FirstUnder(s.elements, iri, j) && ev.value == s.elements[j].1;
        FirstUnderUnique(s.elements, iri, i, j);
      }
    }
    ev.Some? && ev.value.EntityDelete?
  }

  function RelationDeleted(s: AuthoringState): RelationData -> bool {
    (d: RelationData) => IsDeletedRelation(s, d)
  }

  function EntityDeleted(s: AuthoringState): EntityData -> bool {
    (d: EntityData) => IsDeletedEntity(s, d.id)
  }

  /** A relation change stores the new data under the key of the old. */
  function ApplyLinkEvent(links: seq<Item<RelationData>>, ev: LinkEvent): (r: seq<Item<RelationData>>)
    ensures SameLayout(r, links)
  {
    if ev.RelationChange? then
      ChangeDataSpec(links, KeyOf, KeyOf(ev.before), ev.data);
      ChangeData(links, KeyOf, KeyOf(ev.before), ev.data)
    else links
  }

  /** The relation changes, applied one after another in recorded order;
      changing data never moves, adds or removes a canvas item. */
  function ChangeRelations(links: seq<Item<RelationData>>, events: seq<(RelationKey, LinkEvent)>): (r: seq<Item<RelationData>>)
    ensures SameLayout(r, links)
    decreases |events|
  {
    if events == [] then links else ChangeRelations(ApplyLinkEvent(links, events[0].1), events[1..])
  }

  /** The data an entity change writes: the new data, under the new IRI if
      the IRI was changed. */
  function ChangedEntity(ev: ElementEvent): (d: EntityData)
    requires ev.EntityChange?
    ensures d.id == (if ev.newIri.Some? then ev.newIri.value else ev.data.id)
    ensures d.types == ev.data.types && d.properties == ev.data.properties
  {
    if ev.newIri.None? then ev.data else ev.data.(id := ev.newIri.value)
  }

  /** An entity change stores its data under the old IRI. */
  function ApplyElementEvent(elements: seq<Item<EntityData>>, ev: ElementEvent): (r: seq<Item<EntityData>>)
    ensures SameLayout(r, elements)
  {
    if ev.EntityChange? then
      ChangeDataSpec(elements, IriOf, ev.before.id, ChangedEntity(ev));
      ChangeData(elements, IriOf, ev.before.id, ChangedEntity(ev))
    else elements
  }

  /** The entity changes, applied one after another in recorded order;
      changing data never moves, adds or removes a canvas item. */
  function ChangeEntities(elements: seq<Item<EntityData>>, events: seq<(string, ElementEvent)>): (r: seq<Item<EntityData>>)
    ensures SameLayout(r, elements)
    decreases |events|
  {
    if events == [] then elements else ChangeEntities(ApplyElementEvent(elements, events[0].1), events[1..])
  }

  /** `applyAuthoringState`: the committed diagram and the cleared edits.
      Nothing pending deletion is left on the canvas: no single link or
      element shows deleted data and no group holds a deleted member. */
  function ApplyAuthoringState(g: Graph, s: AuthoringState): (r: (Graph, AuthoringState))
    ensures r.1 == Empty
    ensures forall y | y in r.0.links :: Live(y, RelationDeleted(s))
    ensures forall y | y in r.0.elements :: Live(y, EntityDeleted(s))
  {
    var links := Prune(ChangeRelations(g.links, s.links), RelationDeleted(s));
    var elements := Prune(ChangeEntities(g.elements, s.elements), EntityDeleted(s));
    (Graph(elements, links), Empty)
  }

  /** The changes of a concatenation are the changes of the first part
      followed by those of the second. */
  lemma {:induction false} ChangeRelationsOfConcat(links: seq<Item<RelationData>>, a: seq<(RelationKey, LinkEvent)>, b: seq<(RelationKey, LinkEvent)>)
    ensures ChangeRelations(links, a + b) == ChangeRelations(ChangeRelations(links, a), b)
    decreases |a|
  {
    if a == [] {
      assert a + b == b;
    } else {
      assert (a + b)[0] == a[0];
      assert (a + b)[1..] == a[1..] + b;
      ChangeRelationsOfConcat(ApplyLinkEvent(links, a[0].1), a[1..], b);
    }
  }

  lemma {:induction false} ChangeEntitiesOfConcat(elements: seq<Item<EntityData>>, a: seq<(string, ElementEvent)>, b: seq<(string, ElementEvent)>)
    ensures ChangeEntities(elements, a + b) == ChangeEntities(ChangeEntities(elements, a), b)
    decreases |a|
  {
    if a == [] {
      assert a + b == b;
    } else {
      assert (a + b)[0] == a[0];
      assert (a + b)[1..] == a[1..] + b;
      ChangeEntitiesOfConcat(ApplyElementEvent(elements, a[0].1), a[1..], b);
    }
  }

  /** Same positions, canvas ids and item kinds. */
  predicate SameLayout<D>(xs: seq<Item<D>>, ys: seq<Item<D>>) {
    |xs| == |ys| && forall i | 0 <= i < |xs| :: xs[i].id == ys[i].id && xs[i].Single? == ys[i].Single?
  }

  /** After the last recorded relation change, every relation stored under
      its old key holds its new data. */
  lemma LastRelationChangeApplied(links: seq<Item<RelationData>>, events: seq<(RelationKey, LinkEvent)>,
                                  k: RelationKey, before: RelationData, data: RelationData)
    ensures forall y | y in ChangeRelations(links, events + [(k, RelationChange(before, data))]) ::
      (y.Single? && KeyOf(y.data) == KeyOf(before) ==> y.data == data)
      && (y.Group? ==> forall d | d in y.items && KeyOf(d) == KeyOf(before) :: d == data)
  {
    var ev := (k, RelationChange(before, data));
    var prior := ChangeRelations(links, events);
    ChangeRelationsOfConcat(links, events, [ev]);
    assert ChangeRelations(prior, [ev]) == ChangeData(prior, KeyOf, KeyOf(before), data);
    ChangeDataLeavesOnlyNext(prior, KeyOf, KeyOf(before), data);
  }

  /** After the last recorded entity change, every entity stored under its
      old IRI holds the new data, under the new IRI when one was given. */
  lemma LastEntityChangeApplied(elements: seq<Item<EntityData>>, events: seq<(string, ElementEvent)>,
                                k: string, before: EntityData, data: EntityData, newIri: Option<string>)
    ensures forall y | y in ChangeEntities(elements, events + [(k, EntityChange(before, data, newIri))]) ::
      (y.Single? && y.data.id == before.id ==> y.data == ChangedEntity(EntityChange(before, data, newIri)))
      && (y.Group? ==> forall d | d in y.items && d.id == before.id :: d == ChangedEntity(EntityChange(before, data, newIri)))
  {
    var ev := (k, EntityChange(before, data, newIri));
    var next := ChangedEntity(ev.1);
    var prior := ChangeEntities(elements, events);
    ChangeEntitiesOfConcat(elements, events, [ev]);
    assert ChangeEntities(prior, [ev]) == ChangeData(prior, IriOf, before.id, next);
    ChangeDataLeavesOnlyNext(prior, IriOf, before.id, next);
  }

  /** No two relation changes are recorded under the same key, and no change
      writes data under the key a later change reads. */
  ghost predicate IndependentRelationChanges(events: seq<(RelationKey, LinkEvent)>) {
    forall i, j | 0 <= i < j < |events| && events[i].1.RelationChange? && events[j].1.RelationChange? ::
      KeyOf(events[j].1.before) != KeyOf(events[i].1.before) && KeyOf(events[j].1.before) != KeyOf(events[i].1.data)
  }

  /** Relation changes none of which reads the key of `v` leave `v` where it
      was written. */
  lemma {:induction false} RelationWrittenKept(xs: seq<Item<RelationData>>, ys: seq<Item<RelationData>>,
                                               events: seq<(RelationKey, LinkEvent)>, k: RelationKey, v: RelationData)
    requires WrittenAt(xs, ys, KeyOf, k, v)
    requires forall j | 0 <= j < |events| && events[j].1.RelationChange? :: KeyOf(events[j].1.before) != KeyOf(v)
    ensures WrittenAt(xs, ChangeRelations(ys, events), KeyOf, k, v)
    decreases |events|
  {
    if events != [] {
      var ev := events[0].1;
      if ev.RelationChange? {
        WrittenAtAfterChange(xs, ys, KeyOf, k, v, KeyOf(ev.before), ev.data);
      }
      assert forall j | 0 <= j < |events[1..]| :: events[1..][j] == events[j + 1];
      RelationWrittenKept(xs, ApplyLinkEvent(ys, ev), events[1..], k, v);
    }
  }

  /** Every recorded relation change is applied, not only the last: wherever
      a datum under the change's old key was shown, the change's new data is
      shown after all the changes. */
  lemma {:induction false} RelationChangeApplied(links: seq<Item<RelationData>>, events: seq<(RelationKey, LinkEvent)>, i: nat)
    requires IndependentRelationChanges(events)
    requires i < |events| && events[i].1.RelationChange?
    ensures WrittenAt(links, ChangeRelations(links, events), KeyOf, KeyOf(events[i].1.before), events[i].1.data)
    decreases |events|
  {
    var ev := events[0].1;
    var next := ApplyLinkEvent(links, ev);
    assert forall j | 0 <= j < |events[1..]| :: events[1..][j] == events[j + 1];
    if i == 0 {
      ChangeDataWrites(links, KeyOf, KeyOf(ev.before), ev.data);
      RelationWrittenKept(links, next, events[1..], KeyOf(ev.before), ev.data);
    } else {
      RelationChangeApplied(next, events[1..], i - 1);
      if ev.RelationChange? {
        WrittenAtBeforeChange(links, KeyOf, KeyOf(ev.before), ev.data,
                              ChangeRelations(links, events), KeyOf(events[i].1.before), events[i].1.data);
      }
    }
  }

  /** No two entity changes are recorded under the same IRI, and no change
      writes data under the IRI a later change reads. */
  ghost predicate IndependentEntityChanges(events: seq<(string, ElementEvent)>) {
    forall i, j | 0 <= i < j < |events| && events[i].1.EntityChange? && events[j].1.EntityChange? ::
      events[j].1.before.id != events[i].1.before.id && events[j].1.before.id != ChangedEntity(events[i].1).id
  }

  lemma {:induction false} EntityWrittenKept(xs: seq<Item<EntityData>>, ys: seq<Item<EntityData>>,
                                             events: seq<(string, ElementEvent)>, k: string, v: EntityData)
    requires WrittenAt(xs, ys, IriOf, k, v)
    requires forall j | 0 <= j < |events| && events[j].1.EntityChange? :: events[j].1.before.id != v.id
    ensures WrittenAt(xs, ChangeEntities(ys, events), IriOf, k, v)
    decreases |events|
  {
    if events != [] {
      var ev := events[0].1;
      if ev.EntityChange? {
        WrittenAtAfterChange(xs, ys, IriOf, k, v, ev.before.id, ChangedEntity(ev));
      }
      assert forall j | 0 <= j < |events[1..]| :: events[1..][j] == events[j + 1];
      EntityWrittenKept(xs, ApplyElementEvent(ys, ev), events[1..], k, v);
    }
  }

  /** Every recorded entity change is applied, not only the last: wherever
      an entity under the change's old IRI was shown, the changed entity is
      shown after all the changes, under its new IRI if one was given. */
  lemma {:induction false} EntityChangeApplied(elements: seq<Item<EntityData>>, events: seq<(string, ElementEvent)>, i: nat)
    requires IndependentEntityChanges(events)
    requires i < |events| && events[i].1.EntityChange?
    ensures WrittenAt(elements, ChangeEntities(elements, events), IriOf, events[i].1.before.id, ChangedEntity(events[i].1))
    decreases |events|
  {
    var ev := events[0].1;
    var next := ApplyElementEvent(elements, ev);
    assert forall j | 0 <= j < |events[1..]| :: events[1..][j] == events[j + 1];
    if i == 0 {
      ChangeDataWrites(elements, IriOf, ev.before.id, ChangedEntity(ev));
      EntityWrittenKept(elements, next, events[1..], ev.before.id, ChangedEntity(ev));
    } else {
      EntityChangeApplied(next, events[1..], i - 1);
      if ev.EntityChange? {
        WrittenAtBeforeChange(elements, IriOf, ev.before.id, ChangedEntity(ev),
                              ChangeEntities(elements, events), events[i].1.before.id, ChangedEntity(events[i].1));
      }
    }
  }

  /** With unique canvas ids, the committed links are the changed links
      without the single links showing deleted relations, every group kept
      (possibly empty) with its deleted members filtered out, all in their
      original order; the same holds for the elements. Canvas links carry
      no end elements here, so a link group left on a removed element is
      kept, where removing the element would also remove it. */
  lemma CommitKeepsEverythingElse(g: Graph, s: AuthoringState)
    requires UniqueIds(g.links) && UniqueIds(g.elements)
    ensures var c := ChangeRelations(g.links, s.links);
      ApplyAuthoringState(g, s).0.links
        == Filter(seq(|c|, i requires 0 <= i < |c| => PruneGroup(c[i], RelationDeleted(s))), x => Kept(x, RelationDeleted(s)))
    ensures var c := ChangeEntities(g.elements, s.elements);
      ApplyAuthoringState(g, s).0.elements
        == Filter(seq(|c|, i requires 0 <= i < |c| => PruneGroup(c[i], EntityDeleted(s))), x => Kept(x, EntityDeleted(s)))
  {
    PruneUnique(ChangeRelations(g.links, s.links), RelationDeleted(s));
    PruneUnique(ChangeEntities(g.elements, s.elements), EntityDeleted(s));
  }

  /** With unique canvas ids, every group survives the commit, holding its
      members that are not pending deletion, and so does every single item
      that shows data not pending deletion (link groups on a removed
      element included, as for CommitKeepsEverythingElse). */
  lemma CommitKeepsGroupsAndLiveItems(g: Graph, s: AuthoringState)
    requires UniqueIds(g.links) && UniqueIds(g.elements)
    ensures var c := ChangeRelations(g.links, s.links);
      && (forall i | 0 <= i < |c| && c[i].Group? ::
            Group(c[i].id, Survivors(c[i].items, RelationDeleted(s))) in ApplyAuthoringState(g, s).0.links)
      && (forall i | 0 <= i < |c| && c[i].Single? && !RelationDeleted(s)(c[i].data) ::
            c[i] in ApplyAuthoringState(g, s).0.links)
    ensures var c := ChangeEntities(g.elements, s.elements);
      && (forall i | 0 <= i < |c| && c[i].Group? ::
            Group(c[i].id, Survivors(c[i].items, EntityDeleted(s))) in ApplyAuthoringState(g, s).0.elements)
      && (forall i | 0 <= i < |c| && c[i].Single? && !EntityDeleted(s)(c[i].data) ::
            c[i] in ApplyAuthoringState(g, s).0.elements)
  {
    PruneKeepsGroupsAndLive(ChangeRelations(g.links, s.links), RelationDeleted(s));
    PruneKeepsGroupsAndLive(ChangeEntities(g.elements, s.elements), EntityDeleted(s));
  }

  /** With unique canvas ids and independent changes, the commit applies
      every recorded relation change: each single link that showed a
      relation under the change's old key shows the new data, and each
      group that held one holds the new data, unless that data is pending
      deletion. */
  lemma CommitAppliesRelationChange(g: Graph, s: AuthoringState, i: nat)
    requires UniqueIds(g.links)
    requires IndependentRelationChanges(s.links)
    requires i < |s.links| && s.links[i].1.RelationChange?
    ensures var ev := s.links[i].1;
      forall p | 0 <= p < |g.links| && g.links[p].Single? && KeyOf(g.links[p].data) == KeyOf(ev.before) && !IsDeletedRelation(s, ev.data) ::
        Single(g.links[p].id, ev.data) in ApplyAuthoringState(g, s).0.links
    ensures var ev := s.links[i].1;
      forall p, j | 0 <= p < |g.links| && g.links[p].Group? && 0 <= j < |g.links[p].items|
                    && KeyOf(g.links[p].items[j]) == KeyOf(ev.before) && !IsDeletedRelation(s, ev.data) ::
        exists y | y in ApplyAuthoringState(g, s).0.links :: y.Group? && y.id == g.links[p].id && ev.data in y.items
  {
    var ev := s.links[i].1;
    var c := ChangeRelations(g.links, s.links);
    RelationChangeApplied(g.links, s.links, i);
    assert ApplyAuthoringState(g, s).0.links == Prune(c, RelationDeleted(s));
    if !IsDeletedRelation(s, ev.data) {
      PruneShowsWritten(g.links, c, KeyOf, KeyOf(ev.before), ev.data, RelationDeleted(s));
    }
  }

  /** With unique canvas ids and independent changes, the commit applies
      every recorded entity change: each single element that showed the
      entity under the change's old IRI shows the changed entity, and each
      group that held it holds the changed entity, unless the changed entity
      is pending deletion. */
  lemma CommitAppliesEntityChange(g: Graph, s: AuthoringState, i: nat)
    requires UniqueIds(g.elements)
    requires IndependentEntityChanges(s.elements)
    requires i < |s.elements| && s.elements[i].1.EntityChange?
    ensures var next := ChangedEntity(s.elements[i].1);
      forall p | 0 <= p < |g.elements| && g.elements[p].Single? && g.elements[p].data.id == s.elements[i].1.before.id
                 && !IsDeletedEntity(s, next.id) ::
        Single(g.elements[p].id, next) in ApplyAuthoringState(g, s).0.elements
    ensures var next := ChangedEntity(s.elements[i].1);
      forall p, j | 0 <= p < |g.elements| && g.elements[p].Group? && 0 <= j < |g.elements[p].items|
                    && g.elements[p].items[j].id == s.elements[i].1.before.id && !IsDeletedEntity(s, next.id) ::
        exists y | y in ApplyAuthoringState(g, s).0.elements :: y.Group? && y.id == g.elements[p].id && next in y.items
  {
    var ev := s.elements[i].1;
    var next := ChangedEntity(ev);
    var c := ChangeEntities(g.elements, s.elements);
    EntityChangeApplied(g.elements, s.elements, i);
    assert ApplyAuthoringState(g, s).0.elements == Prune(c, EntityDeleted(s));
    if !IsDeletedEntity(s, next.id) {
      PruneShowsWritten(g.elements, c, IriOf, ev.before.id, next, EntityDeleted(s));
    }
  }

  /** Committing with nothing pending leaves the diagram as it is. */
  lemma CommitEmpty(g: Graph)
    ensures ApplyAuthoringState(g, Empty).0 == g
  {
    forall y | y in g.links
      ensures Live(y, RelationDeleted(Empty))
    {
    }
    forall y | y in g.elements
      ensures Live(y, EntityDeleted(Empty))
    {
    }
    PruneOfLive(g.links, RelationDeleted(Empty));
    PruneOfLive(g.elements, EntityDeleted(Empty));
  }

  /** Committing again right after a commit changes nothing. */
  lemma CommitTwice(g: Graph, s: AuthoringState)
    ensures ApplyAuthoringState(ApplyAuthoringState(g, s).0, ApplyAuthoringState(g, s).1).0 == ApplyAuthoringState(g, s).0
  {
    CommitEmpty(ApplyAuthoringState(g, s).0);
  }
}

=== FILE: condition_codec.dfy ===
/**
  The rule-condition codec: a condition `(name, operator, value)` travels
  through the graph as one literal `"<name> <symbol> <value>"` typed
  `RuleCondition`. Operators are plain strings, as at run time: the five known
  ones are mapped to and from their symbols, anything else passes through.
*/
module ConditionCodec {
  import opened Wrappers
  import opened Text
  import opened JsNumber
  import opened Rdf
  import Vocabulary

  datatype Condition = Condition(name: string, operator: string, value: Num)

  /** The five operators a condition is meant to use. */
  datatype Operator = EQ | GT | GE | LT | LE {
    function Name(): (op: string)
      ensures IsOperatorName(op)
    {
      match this
      case EQ => "EQ"
      case GT => "GT"
      case GE => "GE"
      case LT => "LT"
      case LE => "LE"
    }
  }

  predicate IsOperatorName(op: string) {
    op == "EQ" || op == "GT" || op == "GE" || op == "LT" || op == "LE"
  }

  predicate IsSymbol(sym: string) {
    sym == "=" || sym == ">" || sym == ">=" || sym == "<" || sym == "<="
  }

  /** The symbol written for an operator; an unknown operator is written as is. */
  function SymbolOf(operator: string): (sym: string)
    ensures IsOperatorName(operator) ==> IsSymbol(sym)
    ensures !IsOperatorName(operator) ==> sym == operator
  {
    if operator == "EQ" then "="
    else if operator == "GT" then ">"
    else if operator == "GE" then ">="
    else if operator == "LT" then "<"
    else if operator == "LE" then "<="
    else operator
  }

  /** The operator a symbol is read as; an unknown symbol is kept as is. */
  function OperatorOf(symbol: string): (op: string)
    ensures IsSymbol(symbol) ==> IsOperatorName(op) && SymbolOf(op) == symbol
    ensures !IsSymbol(symbol) ==> op == symbol
  {
    if symbol == "=" then "EQ"
    else if symbol == ">" then "GT"
    else if symbol == ">=" then "GE"
    else if symbol == "<" then "LT"
    else if symbol == "<=" then "LE"
    else symbol
  }

  /** The operator table: each of the five operators is written as its own
      symbol, and each symbol is read as its own operator. */
  lemma OperatorTable()
    ensures SymbolOf("EQ") == "=" && OperatorOf("=") == "EQ"
    ensures SymbolOf("GT") == ">" && OperatorOf(">") == "GT"
    ensures SymbolOf("GE") == ">=" && OperatorOf(">=") == "GE"
    ensures SymbolOf("LT") == "<" && OperatorOf("<") == "LT"
    ensures SymbolOf("LE") == "<=" && OperatorOf("<=") == "LE"
  {
  }

  /** On the five operators the two maps are mutually inverse. */
  lemma OperatorMapsInverse(op: string, sym: string)
    ensures IsOperatorName(op) ==> OperatorOf(SymbolOf(op)) == op
    ensures IsSymbol(sym) ==> SymbolOf(OperatorOf(sym)) == sym
  {
  }

  /** An operator survives being written and read back as a field. */
  predicate Encodable(operator: string) {
    Token(SymbolOf(operator)) && OperatorOf(SymbolOf(operator)) == operator
  }

  /** Exactly the five operators and the whitespace-free strings that are not
      one of the five symbols survive the trip. */
  lemma EncodableIff(operator: string)
    ensures Encodable(operator) <==> IsOperatorName(operator) || (Token(operator) && !IsSymbol(operator))
  {
  }

  /** Whatever the decoder produces from a field survives the trip. */
  lemma DecodedOperatorIsEncodable(symbol: string)
    requires Token(symbol)
    ensures Encodable(OperatorOf(symbol))
  {
  }

  /** The three fields of a condition literal. */
  datatype Fields = Fields(name: string, symbol: string, value: string)

  /** `s` is `f`'s three fields with the whitespace runs `w1` and `w2` between them. */
  predicate Separated(s: string, f: Fields, w1: string, w2: string) {
    |w1| > 0 && AllWs(w1) && |w2| > 0 && AllWs(w2) && s == f.name + (w1 + (f.symbol + (w2 + f.value)))
  }

  /** `s` is three non-empty whitespace-free fields separated by whitespace
      runs, with nothing before or after: what
      `^([^\s]+)\s+([^\s]+)\s+([^\s]+)$` accepts, with its three groups. */
  ghost predicate IsSplit(s: string, f: Fields) {
    && Token(f.name) && Token(f.symbol) && Token(f.value)
    && exists w1: string, w2: string :: Separated(s, f, w1, w2)
  }

  /** A single left-to-right scan: field, separator, field, separator, field. */
  function SplitFields(s: string): (r: Option<Fields>)
  {
    var name := TakeRun(s, false);
    var sep1 := TakeRun(name.1, true);
    var symbol := TakeRun(sep1.1, false);
    var sep2 := TakeRun(symbol.1, true);
    var value := TakeRun(sep2.1, false);
    if name.0 != [] && sep1.0 != [] && symbol.0 != [] && sep2.0 != [] && value.0 != [] && value.1 == []
    then Some(Fields(name.0, symbol.0, value.0))
    else None
  }

  /** What the scan returns is a split of its input. */
  lemma SplitFieldsSound(s: string)
    ensures SplitFields(s).Some? ==> IsSplit(s, SplitFields(s).value)
  {
    var name := TakeRun(s, false);
    var sep1 := TakeRun(name.1, true);
    var symbol := TakeRun(sep1.1, false);
    var sep2 := TakeRun(symbol.1, true);
    var value := TakeRun(sep2.1, false);
    TakeRunSpec(s, false);
    TakeRunSpec(name.1, true);
    TakeRunSpec(sep1.1, false);
    TakeRunSpec(symbol.1, true);
    TakeRunSpec(sep2.1, false);
    if SplitFields(s).Some? {
      assert value.1 == [] && sep2.1 == value.0;
      assert symbol.1 == sep2.0 + value.0;
      assert sep1.1 == symbol.0 + (sep2.0 + value.0);
      assert name.1 == sep1.0 + (symbol.0 + (sep2.0 + value.0));
      assert Separated(s, Fields(name.0, symbol.0, value.0), sep1.0, sep2.0);
    }
  }

  /** Every split of the input is the one the scan finds: the scan rejects
      exactly the strings that have no split, and the split is unique. */
  lemma SplitFieldsComplete(s: string, f: Fields)
    requires IsSplit(s, f)
    ensures SplitFields(s) == Some(f)
  {
    var w1, w2 :| Separated(s, f, w1, w2);
    var rest3 := w2 + f.value;
    var rest2 := f.symbol + rest3;
    var rest1 := w1 + rest2;
    assert TakeRun(s, false) == (f.name, rest1) by {
      WsAtHead(w1, rest2);
      TakeRunOfConcat(f.name, rest1, false);
    }
    assert TakeRun(rest1, true) == (w1, rest2) by {
      WsAtHead(f.symbol, rest3);
      TakeRunOfConcat(w1, rest2, true);
    }
    assert TakeRun(rest2, false) == (f.symbol, rest3) by {
      WsAtHead(w2, f.value);
      TakeRunOfConcat(f.symbol, rest3, false);
    }
    assert TakeRun(rest3, true) == (w2, f.value) by {
      WsAtHead(f.value, []);
      TakeRunOfConcat(w2, f.value, true);
    }
    assert TakeRun(f.value, false) == (f.value, []) by {
      assert f.value + [] == f.value;
      TakeRunOfConcat(f.value, [], false);
    }
    SplitFieldsOfRuns(s, f, w1, w2, rest1, rest2, rest3);
  }

  /** The scan only looks at the five runs it takes. */
  lemma SplitFieldsOfRuns(s: string, f: Fields, w1: string, w2: string, rest1: string, rest2: string, rest3: string)
    requires TakeRun(s, false) == (f.name, rest1) && TakeRun(rest1, true) == (w1, rest2)
    requires TakeRun(rest2, false) == (f.symbol, rest3) && TakeRun(rest3, true) == (w2, f.value)
    requires TakeRun(f.value, false) == (f.value, [])
    requires f.name != [] && w1 != [] && f.symbol != [] && w2 != [] && f.value != []
    ensures SplitFields(s) == Some(f)
  {
  }

  datatype CodecError = MalformedCondition(expression: Term)

  /** The text of the error the decoder throws. */
  function ErrorMessage(e: CodecError): string {
    "Invalid scene rule transition condition expression: "
      + (if IsLiteral(e.expression) then e.expression.value else "")
  }

  /** `serializeCondition`: the condition as one literal of type `RuleCondition`. */
  function Serialize(c: Condition): (lit: Term)
    ensures lit.Lit? && lit.datatypeIri == Vocabulary.RuleCondition
  {
    Lit(c.name + " " + SymbolOf(c.operator) + " " + Render(c.value), Vocabulary.RuleCondition)
  }

  /** `deserializeCondition`: split the literal's text into three fields, read
      the symbol back as an operator and the last field as a number. The
      datatype, the name grammar and the number are not checked. */
  function Deserialize(expression: Term): (r: Result<Condition, CodecError>)
    requires IsLiteral(expression)
    ensures r.Success? ==> Token(r.value.name) && Encodable(r.value.operator)
    ensures r.Failure? ==> r.error == MalformedCondition(expression)
  {
    match SplitFields(expression.value)
    case None => Failure(MalformedCondition(expression))
    case Some(f) =>
      SplitFieldsSound(expression.value);
      DecodedOperatorIsEncodable(f.symbol);
      Success(Condition(f.name, OperatorOf(f.symbol), Parse(f.value)))
  }

  /** The decoder fails exactly on text that is not three whitespace-separated
      fields, and on success returns the fields of that (unique) split. */
  lemma DeserializeSpec(expression: Term)
    requires IsLiteral(expression)
    ensures Deserialize(expression).Failure? <==> forall f :: !IsSplit(expression.value, f)
    ensures forall f :: IsSplit(expression.value, f) ==>
      Deserialize(expression) == Success(Condition(f.name, OperatorOf(f.symbol), Parse(f.value)))
  {
    SplitFieldsSound(expression.value);
    forall f | IsSplit(expression.value, f)
      ensures SplitFields(expression.value) == Some(f)
    {
      SplitFieldsComplete(expression.value, f);
    }
  }

  /** The serialized text splits into the name, the symbol and the rendered
      value whenever the name and the symbol are single fields. */
  lemma SerializeFields(c: Condition)
    requires Token(c.name) && Token(SymbolOf(c.operator))
    ensures SplitFields(Serialize(c).value) == Some(Fields(c.name, SymbolOf(c.operator), Render(c.value)))
  {
    var f := Fields(c.name, SymbolOf(c.operator), Render(c.value));
    RenderIsToken(c.value);
    assert AllWs(" ");
    assert Serialize(c).value == f.name + (" " + (f.symbol + (" " + f.value)));
    assert Separated(Serialize(c).value, f, " ", " ");
    SplitFieldsComplete(Serialize(c).value, f);
  }

  /** Round trip: a condition comes back unchanged exactly when its name is
      one whitespace-free field and its operator is encodable (in particular,
      for every one of the five operators). */
  lemma RoundTrip(c: Condition)
    ensures Deserialize(Serialize(c)) == Success(c) <==> Token(c.name) && Encodable(c.operator)
  {
    if Token(c.name) && Encodable(c.operator) {
      SerializeFields(c);
      ParseRender(c.value);
    }
  }

  /** Each of the five operator names maps to a symbol and back. */
  lemma OperatorNameEncodable(op: Operator)
    ensures Encodable(op.Name())
  {
    OperatorTable();
  }

  /** The five operators always round-trip with a well-formed name. */
  lemma RoundTripOperator(name: string, op: Operator, value: Num)
    requires Token(name)
    ensures Deserialize(Serialize(Condition(name, op.Name(), value))) == Success(Condition(name, op.Name(), value))
  {
    OperatorNameEncodable(op);
    RoundTrip(Condition(name, op.Name(), value));
  }
}

=== FILE: condition_input.dfy ===
/**
  The condition field of the relation form: the text boxes and the operator
  selector show a parsed condition, every edit is validated and rebuilt, and
  the field commits a new literal to the form only when the edit produced a
  condition. When the form hands the field a value, the field keeps what the
  user is editing if that value is the one it shows, and re-parses otherwise.
*/
module ConditionInput {
  import opened Wrappers
  import opened Text
  import opened JsNumber
  import opened Rdf
  import opened ConditionCodec

  /** What the field shows: the literal it stands for, the condition it was
      built from (if any), the three editable fields and a message. */
  datatype ParsedCondition = ParsedCondition(
    expression: Term,
    built: Option<Condition>,
    name: string,
    operator: string,
    value: string,
    validationMessage: Option<string>)

  const NotLiteralMessage: string := "Condition is not a literal"
  const InvalidConditionPrefix: string := "Invalid condition: "
  const NameMessage: string := "Condition property name should only include characters from [a-z0-9_]+"
  const NumberMessage: string := "Invalid numeric value for the condition"

  /** The field's value is a named node or a literal. */
  predicate IsFieldValue(t: Term) {
    t.Named? || IsLiteral(t)
  }

  /** The empty form the field falls back to, with a message. */
  function Unparsed(expression: Term, message: string): ParsedCondition {
    ParsedCondition(expression, None, "", "EQ", "", Some(message))
  }

  predicate IsNameChar(c: char) {
    ('a' <= c <= 'z') || ('0' <= c <= '9') || c == '_'
  }

  /** The property-name grammar `^[a-z0-9_]+$`. */
  predicate IsConditionName(s: string) {
    |s| > 0 && forall i | 0 <= i < |s| :: IsNameChar(s[i])
  }

  /** A grammatical name is a single whitespace-free field, so it survives
      the condition codec. */
  lemma ConditionNameIsToken(s: string)
    requires IsConditionName(s)
    ensures Token(s)
  {
    assert forall i | 0 <= i < |s| :: !WsAt(s, i) by {
      forall i | 0 <= i < |s|
        ensures !WsAt(s, i)
      {
        assert IsNameChar(s[i]);
      }
    }
  }

  /** `parseCondition`: a literal the codec accepts fills the fields from the
      decoded condition; a literal it rejects, and anything that is not a
      literal, gives the empty form with a message saying why. */
  function ParseCondition(expression: Term): (p: ParsedCondition)
    requires IsFieldValue(expression)
    ensures p.expression == expression
    ensures p.built.Some? <==> IsLiteral(expression) && Deserialize(expression).Success?
    ensures p.built.Some? ==>
      && p.built == Some(Deserialize(expression).value)
      && p.name == p.built.value.name && p.operator == p.built.value.operator
      && p.value == Render(p.built.value.value)
      && p.validationMessage == None
    ensures expression.Named? ==> p == Unparsed(expression, NotLiteralMessage)
    ensures IsLiteral(expression) && Deserialize(expression).Failure? ==>
      p == Unparsed(expression, InvalidConditionPrefix + ErrorMessage(MalformedCondition(expression)))
    ensures Encodable(p.operator)
  {
    if IsLiteral(expression) then
      match Deserialize(expression)
      case Success(d) => ParsedCondition(expression, Some(d), d.name, d.operator, Render(d.value), None)
      case Failure(e) => Unparsed(expression, InvalidConditionPrefix + ErrorMessage(e))
    else Unparsed(expression, NotLiteralMessage)
  }

  /** `buildCondition`: the name grammar is checked first, then the number;
      a failed check keeps the literal and the fields and only drops the
      built condition and sets the message; success builds the condition,
      serializes it and clears the message. */
  function BuildCondition(p: ParsedCondition): (q: ParsedCondition)
    ensures !IsConditionName(p.name) ==> q == p.(built := None, validationMessage := Some(NameMessage))
    ensures IsConditionName(p.name) && !IsFinite(Parse(p.value)) ==>
      q == p.(built := None, validationMessage := Some(NumberMessage))
    ensures q.built.Some? <==> IsConditionName(p.name) && IsFinite(Parse(p.value))
    ensures q.built.Some? ==>
      && q.built.value == Condition(p.name, p.operator, Parse(p.value))
      && q.expression == Serialize(q.built.value)
      && q.validationMessage == None
    ensures q.name == p.name && q.operator == p.operator && q.value == p.value
  {
    if !IsConditionName(p.name) then
      p.(built := None, validationMessage := Some(NameMessage))
    else
      var n := Parse(p.value);
      if !IsFinite(n) then
        p.(built := None, validationMessage := Some(NumberMessage))
      else
        var built := Condition(p.name, p.operator, n);
        p.(expression := Serialize(built), built := Some(built), validationMessage := None)
  }

  /** Validating twice changes nothing more than validating once. */
  lemma BuildIdempotent(p: ParsedCondition)
    ensures BuildCondition(BuildCondition(p)) == BuildCondition(p)
  {
  }

  /** What a successful build commits reads back as the condition it built,
      with the same name and operator and the number rendered canonically,
      provided the operator is one the codec can carry. */
  lemma ParseBuilt(p: ParsedCondition)
    requires BuildCondition(p).built.Some?
    requires Encodable(p.operator)
    ensures ParseCondition(BuildCondition(p).expression).built == BuildCondition(p).built
    ensures ParseCondition(BuildCondition(p).expression).name == p.name
    ensures ParseCondition(BuildCondition(p).expression).operator == p.operator
    ensures ParseCondition(BuildCondition(p).expression).value == Render(Parse(p.value))
  {
    var c := BuildCondition(p).built.value;
    ConditionNameIsToken(p.name);
    RoundTrip(c);
  }

  /** Rebuilding a parsed literal whose name is grammatical and whose number
      is finite yields the same condition, in canonical spelling. */
  lemma RebuildParsed(expression: Term)
    requires IsFieldValue(expression)
    requires ParseCondition(expression).built.Some?
    requires IsConditionName(ParseCondition(expression).name)
    requires IsFinite(ParseCondition(expression).built.value.value)
    ensures BuildCondition(ParseCondition(expression)).built == ParseCondition(expression).built
    ensures BuildCondition(ParseCondition(expression)).expression == Serialize(ParseCondition(expression).built.value)
  {
    ParseRender(ParseCondition(expression).built.value.value);
  }

  /** An edit of one of the three inputs. */
  datatype Edit = SetName(name: string) | SetOperator(op: Operator) | SetValue(value: string)

  /** The field's state and the value the form currently holds for it. */
  datatype Field = Field(form: ParsedCondition, committed: Term)

  /** The first render: the form's value, parsed. */
  function Mount(value: Term): (m: Field)
    requires IsFieldValue(value)
    ensures m.committed == value
    ensures Consistent(m)
  {
    Field(ParseCondition(value), value)
  }

  /** The edited form, before validation: the edited input takes the new
      text, everything else stays, and the operator selector only offers
      operators the codec carries. */
  function ApplyEdit(p: ParsedCondition, e: Edit): (q: ParsedCondition)
    ensures q.expression == p.expression && q.built == p.built && q.validationMessage == p.validationMessage
    ensures q.name == (if e.SetName? then e.name else p.name)
    ensures q.operator == (if e.SetOperator? then e.op.Name() else p.operator)
    ensures q.value == (if e.SetValue? then e.value else p.value)
    ensures Encodable(p.operator) ==> Encodable(q.operator)
  {
    match e
    case SetName(name) => p.(name := name)
    case SetOperator(op) => OperatorNameEncodable(op); p.(operator := op.Name())
    case SetValue(value) => p.(value := value)
  }

  /** `updateCondition`: the edited form is validated and shown; the form's
      value changes only when validation built a condition. */
  function UpdateCondition(f: Field, e: Edit): (g: Field)
    ensures g.form == BuildCondition(ApplyEdit(f.form, e))
    ensures g.committed != f.committed ==> g.form.built.Some?
    ensures g.form.built.Some? ==> g.committed == Serialize(g.form.built.value) == g.form.expression
    ensures g.form.built.None? ==> g.committed == f.committed && g.form.validationMessage.Some?
  {
    var validated := BuildCondition(ApplyEdit(f.form, e));
    Field(validated, if validated.built.Some? then validated.expression else f.committed)
  }

  /** The effect on a new value: keep the local state when the value is the
      literal the field shows, re-parse otherwise. */
  function Resync(f: Field, value: Term): (g: Field)
    requires IsFieldValue(value)
    ensures g.committed == value && g.form.expression == value
    ensures f.form.expression == value ==> g.form == f.form
    ensures f.form.expression != value ==> g.form == ParseCondition(value)
  {
    Field(if f.form.expression == value then f.form else ParseCondition(value), value)
  }

  datatype Event = Edited(edit: Edit) | Received(value: Term)

  predicate ValidEvent(ev: Event) {
    ev.Received? ==> IsFieldValue(ev.value)
  }

  function Step(f: Field, ev: Event): Field
    requires ValidEvent(ev)
  {
    match ev
    case Edited(e) => UpdateCondition(f, e)
    case Received(value) => Resync(f, value)
  }

  function Run(f: Field, evs: seq<Event>): Field
    requires forall i | 0 <= i < |evs| :: ValidEvent(evs[i])
    decreases |evs|
  {
    if evs == [] then f else Run(Step(f, evs[0]), evs[1..])
  }

  /** What the field keeps true: the literal it shows is the form's value;
      the message is shown exactly when no condition is built; a built
      condition is what the form's value decodes to; and the operator shown
      is one the codec carries. */
  predicate Consistent(f: Field) {
    && IsFieldValue(f.committed)
    && f.form.expression == f.committed
    && (f.form.built.Some? <==> f.form.validationMessage.None?)
    && (f.form.built.Some? ==> IsLiteral(f.committed) && Deserialize(f.committed) == Success(f.form.built.value))
    && Encodable(f.form.operator)
  }

  lemma UpdateConsistent(f: Field, e: Edit)
    requires Consistent(f)
    ensures Consistent(UpdateCondition(f, e))
  {
    var p := ApplyEdit(f.form, e);
    var g := UpdateCondition(f, e);
    if g.form.built.Some? {
      ConditionNameIsToken(p.name);
      RoundTrip(g.form.built.value);
    }
  }

  lemma ResyncConsistent(f: Field, value: Term)
    requires Consistent(f) && IsFieldValue(value)
    ensures Consistent(Resync(f, value))
  {
  }

  /** Every sequence of edits and new values keeps the field consistent. */
  lemma {:induction false} RunConsistent(f: Field, evs: seq<Event>)
    requires Consistent(f)
    requires forall i | 0 <= i < |evs| :: ValidEvent(evs[i])
    ensures Consistent(Run(f, evs))
    decreases |evs|
  {
    if evs != [] {
      match evs[0] {
        case Edited(e) => UpdateConsistent(f, e);
        case Received(value) => ResyncConsistent(f, value);
      }
      RunConsistent(Step(f, evs[0]), evs[1..]);
    }
  }

  /** A failed edit never reaches the form: the form's value stays and the
      field shows why. */
  lemma FailedEditKeepsValue(f: Field, e: Edit)
    requires Consistent(f)
    requires UpdateCondition(f, e).form.built.None?
    ensures UpdateCondition(f, e).committed == f.committed
    ensures UpdateCondition(f, e).form.expression == f.committed
    ensures UpdateCondition(f, e).form.validationMessage.Some?
  {
  }

  /** When the form echoes back the value the field just committed, the
      field keeps what the user typed instead of re-parsing it. */
  lemma EchoKeepsEdits(f: Field, e: Edit)
    requires Consistent(f)
    ensures Resync(UpdateCondition(f, e), UpdateCondition(f, e).committed) == UpdateCondition(f, e)
  {
  }
}

=== FILE: js_number.dfy ===
/**
  JavaScript numbers as the scene rules use them: `String(n)` renders one and
  `Number(s)` reads one. The finite values are the integral ones; the model
  keeps NaN and the two infinities because `Number()` can produce them.
*/
module JsNumber {
  import opened Text

  datatype Num = Int(i: int) | NaN | Infinity | NegInfinity

  /** `Number.isFinite`. */
  predicate IsFinite(n: Num) {
    n.Int?
  }

  /** The number one, the weight that is never written out. */
  const One: Num := Int(1)

  /** `String(n)`. */
  function Render(n: Num): string {
    match n
    case Int(i) => if i < 0 then "-" + NatDigits(-i) else NatDigits(i)
    case NaN => "NaN"
    case Infinity => "Infinity"
    case NegInfinity => "-Infinity"
  }

  /** `t` is an optionally signed decimal integer. */
  predicate IsSignedDigits(t: string) {
    IsDigits(t) || (|t| > 0 && (t[0] == '+' || t[0] == '-') && IsDigits(t[1..]))
  }

  /** The trimmed texts the model reads as a number: blank text, the spelled
      infinities and optionally signed decimal integers. */
  predicate IsNumberText(t: string) {
    t == "" || t == "Infinity" || t == "+Infinity" || t == "-Infinity" || IsSignedDigits(t)
  }

  /** `Number(s)`: surrounding whitespace is ignored, the empty string is zero,
      an optionally signed decimal integer and the spelled-out infinities are
      read, and anything else is NaN. */
  function Parse(s: string): (n: Num)
    ensures Trim(s) == "" ==> n == Int(0)
    ensures IsDigits(Trim(s)) ==> n == Int(DigitsValue(Trim(s)))
    ensures |Trim(s)| > 0 && Trim(s)[0] == '+' && IsDigits(Trim(s)[1..]) ==> n == Int(DigitsValue(Trim(s)[1..]))
    ensures |Trim(s)| > 0 && Trim(s)[0] == '-' && IsDigits(Trim(s)[1..]) ==> n == Int(-(DigitsValue(Trim(s)[1..]) as int))
    ensures Trim(s) == "Infinity" || Trim(s) == "+Infinity" ==> n == Infinity
    ensures Trim(s) == "-Infinity" ==> n == NegInfinity
    ensures n.NaN? <==> !IsNumberText(Trim(s))
    ensures n.Int? <==> Trim(s) == "" || IsSignedDigits(Trim(s))
  {
    var t := Trim(s);
    if t == "" then Int(0)
    else if t == "Infinity" || t == "+Infinity" then Infinity
    else if t == "-Infinity" then NegInfinity
    else if IsDigits(t) then Int(DigitsValue(t))
    else if t[0] == '+' && IsDigits(t[1..]) then Int(DigitsValue(t[1..]))
    else if t[0] == '-' && IsDigits(t[1..]) then Int(-(DigitsValue(t[1..]) as int))
    else NaN
  }

  /** A rendered number is one whitespace-free field. */
  lemma RenderIsToken(n: Num)
    ensures Token(Render(n))
  {
    match n
    case Int(i) =>
      var d := if i < 0 then -i else i;
      assert forall k | 0 <= k < |NatDigits(d)| :: !IsWs(NatDigits(d)[k]);
    case _ =>
  }

  /** Reading back what was rendered gives the same number. */
  lemma ParseRender(n: Num)
    ensures Parse(Render(n)) == n
  {
    var r := Render(n);
    RenderIsToken(n);
    TrimOfNoWs(r);
    match n
    case Int(i) =>
      var d := if i < 0 then -i else i;
      DigitsValueOfNatDigits(d);
      if i < 0 {
        assert r[1..] == NatDigits(d);
        assert !IsDigit(r[0]);
      }
    case _ =>
  }
}

=== FILE: metadata_provider.dfy ===
/**
  The editor rules of the scene graph: only scenes may be edited, renamed or
  deleted; only `to` relations may be; new entities are always scenes with a
  random id; scenes connect to scenes by `to` relations only; and a `to`
  relation carries a weight and conditions.
*/
module SceneMetadata {
  import opened Text
  import opened Wrappers
  import opened Workspace
  import V = Vocabulary
  import SceneQuads
  import ConditionCodec
  import JsNumber
  import Rdf

  datatype EntityPermissions = EntityPermissions(canChangeIri: bool, canEdit: bool, canDelete: bool)

  datatype RelationPermissions = RelationPermissions(canChangeType: bool, canEdit: bool, canDelete: bool)

  /** A way to connect: the types a target may have and the link types that
      may go into and out of the source. */
  datatype ConnectionSpec = ConnectionSpec(targetTypes: set<string>, inLinks: seq<string>, outLinks: seq<string>)

  /** A relation property whose values are literals of a given datatype. */
  datatype PropertyShape = LiteralShape(datatypeIri: string)

  predicate IsScene(e: EntityData) {
    V.Scene in e.types
  }

  /** `canModifyEntity`: a scene may have its IRI changed, be edited and be
      deleted; any other entity none of these. */
  function CanModifyEntity(e: EntityData): (p: EntityPermissions)
    ensures p.canChangeIri == p.canEdit == p.canDelete
    ensures p.canEdit <==> IsScene(e)
  {
    var isScene := V.Scene in e.types;
    EntityPermissions(isScene, isScene, isScene)
  }

  /** `canModifyRelation`: the same, for `to` relations. */
  function CanModifyRelation(link: RelationData): (p: RelationPermissions)
    ensures p.canChangeType == p.canEdit == p.canDelete
    ensures p.canEdit <==> link.linkType == V.To
  {
    var isTransition := link.linkType == V.To;
    RelationPermissions(isTransition, isTransition, isTransition)
  }

  /** `filterConstructibleTypes`: of the requested types, only the scene type
      may be created. */
  function FilterConstructibleTypes(types: seq<string>): (r: set<string>)
    ensures r == (set t | t in types) * {V.Scene}
    ensures r == {} <==> V.Scene !in types
  {
    var r := set t | t in types && t == V.Scene;
    assert V.Scene in types ==> V.Scene in r;
    r
  }

  /** The random part of a new id: the five digits after the leading one of
      `draw`, which `Math.floor(100000 * (1 + Math.random()))` keeps in
      [100000, 200000). */
  function RandomSuffix(draw: nat): (s: string)
    requires 100000 <= draw < 200000
    ensures |s| == 5 && IsDigits(s) && DigitsValue(s) == draw - 100000
  {
    var digits := NatDigits(draw);
    SixDigits(draw);
    digits[1..]
  }

  lemma SixDigits(draw: nat)
    requires 100000 <= draw < 200000
    ensures |NatDigits(draw)| == 6
    ensures DigitsValue(NatDigits(draw)[1..]) == draw - 100000
  {
    var s := NatDigits(draw);
    assert Pow10(5) == 100000 by {
      assert Pow10(1) == 10;
      assert Pow10(2) == 100;
      assert Pow10(3) == 1000;
      assert Pow10(4) == 10000;
    }
    assert Pow10(6) == 1000000;
    NatDigitsLength(draw, 5);
    assert s == [s[0]] + s[1..];
    DigitsValueOfNatDigits(draw);
    DigitsValueOfCons(s[0], s[1..]);
    DigitsValueBound(s[1..]);
  }

  /** The local name of a new entity: `scene` and five random digits. */
  function NewLocalId(draw: nat): string
    requires 100000 <= draw < 200000
  {
    "scene" + RandomSuffix(draw)
  }

  /** `createEntity`: whatever type was asked for, the new entity is a scene
      without properties; only its IRI says whether a scene was asked for.
      `prefix` stands for the namespace the IRI is built under and `draw` for
      the random number. */
  function CreateEntity(prefix: string, requestedType: string, draw: nat): (e: EntityData)
    requires 100000 <= draw < 200000
    ensures e.types == [V.Scene] && e.properties == map[]
    ensures requestedType == V.Scene ==> e.id == prefix + "scene:" + NewLocalId(draw)
    ensures requestedType != V.Scene ==> e.id == prefix + "entity:" + NewLocalId(draw)
  {
    var id := NewLocalId(draw);
    EntityData(if requestedType == V.Scene then prefix + "scene:" + id else prefix + "entity:" + id, [V.Scene], map[])
  }

  /** A new local id is `scene` followed by exactly five digits, and the
      digits tell the draw apart: different draws give different ids. */
  lemma NewLocalIdShape(draw: nat, other: nat)
    requires 100000 <= draw < 200000 && 100000 <= other < 200000
    ensures |NewLocalId(draw)| == 10 && NewLocalId(draw)[..5] == "scene" && IsDigits(NewLocalId(draw)[5..])
    ensures NewLocalId(draw) == NewLocalId(other) <==> draw == other
  {
    assert NewLocalId(draw)[5..] == RandomSuffix(draw);
    assert NewLocalId(other)[5..] == RandomSuffix(other);
  }

  /** Whether a link type was given: `!linkType` treats the empty string as
      missing too. */
  predicate GivenLinkType(linkType: Option<string>) {
    linkType.Some? && linkType.value != ""
  }

  const SceneConnection: ConnectionSpec := ConnectionSpec({V.Scene}, [V.To], [V.To])

  /** `canConnect`: a scene may be connected, to a scene or to anything not
      yet chosen, by a `to` relation or a relation not yet chosen; the one way
      to do so links scenes by `to` in both directions. */
  function CanConnect(source: EntityData, target: Option<EntityData>, linkType: Option<string>): (r: seq<ConnectionSpec>)
    ensures r != [] <==>
      && IsScene(source)
      && (target.None? || IsScene(target.value))
      && (!GivenLinkType(linkType) || linkType.value == V.To)
    ensures r != [] ==> r == [SceneConnection]
  {
    if V.Scene in source.types
      && (target.None? || V.Scene in target.value.types)
      && (!GivenLinkType(linkType) || linkType.value == V.To)
    then [ConnectionSpec({V.Scene}, [V.To], [V.To])]
    else []
  }

  /** `getRelationShape`: a `to` relation has a weight, an `xsd:double`
      literal, and conditions, `RuleCondition` literals; other relations have
      no properties. */
  function GetRelationShape(linkType: string): (shape: map<string, PropertyShape>)
    ensures linkType == V.To ==> shape == map[V.Weight := LiteralShape(V.XsdDouble), V.ConditionProperty := LiteralShape(V.RuleCondition)]
    ensures linkType != V.To ==> shape == map[]
  {
    var properties: map<string, PropertyShape> := map[];
    if linkType == V.To then
      properties[V.Weight := LiteralShape(V.XsdDouble)][V.ConditionProperty := LiteralShape(V.RuleCondition)]
    else properties
  }

  /** A created entity is a scene: it can be edited, renamed and deleted, it
      can be connected to another created entity, and its type is one the
      editor lets users create. */
  lemma CreatedEntityIsUsable(prefix: string, requestedType: string, draw: nat)
    requires 100000 <= draw < 200000
    ensures CanModifyEntity(CreateEntity(prefix, requestedType, draw)).canEdit
    ensures CanModifyEntity(CreateEntity(prefix, requestedType, draw)).canDelete
    ensures CanConnect(CreateEntity(prefix, requestedType, draw), Some(CreateEntity(prefix, requestedType, draw)), None) == [SceneConnection]
    ensures FilterConstructibleTypes(CreateEntity(prefix, requestedType, draw).types) == {V.Scene}
  {
  }

  /** Whatever a connection offers can be edited afterwards: the source and
      any chosen target are editable scenes, and every offered link type is
      one that can be edited and has the weight and condition properties. */
  lemma ConnectionsAreEditable(source: EntityData, target: Option<EntityData>, linkType: Option<string>, link: RelationData)
    requires CanConnect(source, target, linkType) != []
    requires link.linkType in CanConnect(source, target, linkType)[0].outLinks
    ensures CanModifyEntity(source).canEdit
    ensures target.Some? ==> CanModifyEntity(target.value).canEdit
    ensures CanModifyRelation(link).canEdit
    ensures GetRelationShape(link.linkType).Keys == {V.Weight, V.ConditionProperty}
  {
  }

  /** Exactly the editable relations have properties. */
  lemma ShapeIffEditable(link: RelationData)
    ensures GetRelationShape(link.linkType) != map[] <==> CanModifyRelation(link).canEdit
  {
    if link.linkType == V.To {
      assert V.Weight in GetRelationShape(link.linkType);
    }
  }

  /** The shapes describe what the quad projection writes: a rule's `to`
      quad has the editable link type, and its weight and condition quads
      use the two shaped properties with literals of the shaped datatypes. */
  lemma ShapesDescribeProjection(r: SceneQuads.SceneRule, c: ConditionCodec.Condition)
    ensures SceneQuads.RuleQuad(r).property.iri == V.To
    ensures SceneQuads.WeightQuad(r).property.iri in GetRelationShape(V.To)
    ensures GetRelationShape(V.To)[SceneQuads.WeightQuad(r).property.iri].datatypeIri
      == SceneQuads.WeightQuad(r).obj.datatypeIri
    ensures SceneQuads.ConditionQuad(r, c).property.iri in GetRelationShape(V.To)
    ensures GetRelationShape(V.To)[SceneQuads.ConditionQuad(r, c).property.iri].datatypeIri
      == SceneQuads.ConditionQuad(r, c).obj.datatypeIri
  {
  }

  /** The weight quad as written does not fit the weight shape: its literal
      carries the datatype IRI as a language tag and has no datatype, so it
      differs from the typed literal the shape asks for, for every weight. */
  lemma WeightAsWrittenMissesShape(r: SceneQuads.SceneRule)
    ensures SceneQuads.WeightQuadAsWritten(r).obj.LangLit?
    ensures SceneQuads.WeightQuadAsWritten(r).obj.language == V.XsdDouble
    ensures SceneQuads.WeightQuadAsWritten(r).obj != SceneQuads.WeightQuad(r).obj
    ensures SceneQuads.WeightQuadAsWritten(r).obj
      != Rdf.Lit(SceneQuads.WeightQuadAsWritten(r).obj.value, GetRelationShape(V.To)[V.Weight].datatypeIri)
  {
  }

  /** A rule of weight two, for which the projection writes the weight quad. */
  lemma WeightTwoIsLanguageTagged()
    ensures SceneQuads.WeightQuads(SceneQuads.SceneRule("a", "b", JsNumber.Int(2), [])) != []
    ensures SceneQuads.WeightQuadAsWritten(SceneQuads.SceneRule("a", "b", JsNumber.Int(2), [])).obj
      == Rdf.LangLit("2", V.XsdDouble)
  {
    assert Text.NatDigits(2) == "2";
  }
}

=== FILE: rdf.dfy ===
/** RDF(-star) terms and quads, as far as the scene graph uses them. A quad
    in the default graph is a triple (subject, property, object); a quoted quad can be the subject of
    another (RDF-star), which is how rule properties are attached. */
module Rdf {

  /** A literal either has a datatype or, in place of one, a language tag. */
  datatype Term =
    | Named(iri: string)
    | Lit(value: string, datatypeIri: string)
    | LangLit(value: string, language: string)
    | Quoted(quad: Quad)

  /** Whether a term is a literal (`termType === 'Literal'`). */
  predicate IsLiteral(t: Term) {
    t.Lit? || t.LangLit?
  }

  datatype Quad = Quad(subject: Term, property: Term, obj: Term)
}

=== FILE: scene_quads.dfy ===
/**
  Projection of a scene rule list into RDF(-star) quads: one type quad per
  distinct scene, then per rule a `to` quad, an optional weight quad and one
  condition quad per parameter, the latter two about the quoted `to` quad.
*/
module SceneQuads {
  import opened Wrappers
  import opened Sequences
  import opened JsNumber
  import opened Text
  import opened Rdf
  import opened ConditionCodec
  import V = Vocabulary

  /** One transition of the story: from `currentScene` to `resultScene`,
      with a weight and the conditions that must all hold. */
  datatype SceneRule = SceneRule(currentScene: string, resultScene: string, weight: Num, params: seq<Condition>)

  /** `makeSceneSchema`: the schema is the single quad declaring the scene class. */
  function MakeSceneSchema(): (schema: seq<Quad>)
    ensures |schema| == 1
    ensures schema[0].subject == Named(V.Scene)
    ensures schema[0].property == Named(V.RdfType) && schema[0].obj == Named(V.RdfsClass)
  {
    [Quad(Named(V.Scene), Named(V.RdfType), Named(V.RdfsClass))]
  }

  const ScenePrefix: string := V.Namespace + "scene:"

  /** The node IRI of the scene called `id`. */
  function SceneIri(id: string): (iri: string)
    ensures |iri| == |ScenePrefix| + |id|
    ensures iri[..|ScenePrefix|] == ScenePrefix && iri[|ScenePrefix|..] == id
  {
    ScenePrefix + id
  }

  /** The scene id of a scene node, if `t` is one. */
  function SceneIdOf(t: Term): (id: Option<string>)
    ensures id.Some? ==> t == Named(SceneIri(id.value))
  {
    if t.Named? && |ScenePrefix| <= |t.iri| && t.iri[..|ScenePrefix|] == ScenePrefix
    then
      assert t.iri == ScenePrefix + t.iri[|ScenePrefix|..];
      Some(t.iri[|ScenePrefix|..])
    else None
  }

  /** A scene id is read back from its node. */
  lemma SceneIdOfSceneIri(id: string)
    ensures SceneIdOf(Named(SceneIri(id))) == Some(id)
  {
    assert SceneIri(id)[..|ScenePrefix|] == ScenePrefix;
    assert SceneIri(id)[|ScenePrefix|..] == id;
  }

  /** Different scenes get different nodes. */
  lemma SceneIriInjective(a: string, b: string)
    ensures SceneIri(a) == SceneIri(b) <==> a == b
  {
    SceneIdOfSceneIri(a);
    SceneIdOfSceneIri(b);
  }

  function SceneNode(id: string): Term {
    Named(SceneIri(id))
  }

  function TypeQuad(id: string): Quad {
    Quad(SceneNode(id), Named(V.RdfType), Named(V.Scene))
  }

  function RuleQuad(r: SceneRule): Quad {
    Quad(SceneNode(r.currentScene), Named(V.To), SceneNode(r.resultScene))
  }

  function WeightQuad(r: SceneRule): Quad {
    Quad(Quoted(RuleQuad(r)), Named(V.Weight), Lit(Render(r.weight), V.XsdDouble))
  }

  /** The weight quad as the projection literally builds it: the datatype
      IRI is passed as a plain string, which a data factory takes for a
      language tag. */
  function WeightQuadAsWritten(r: SceneRule): Quad {
    Quad(Quoted(RuleQuad(r)), Named(V.Weight), LangLit(Render(r.weight), V.XsdDouble))
  }

  function ConditionQuad(r: SceneRule, c: Condition): Quad {
    Quad(Quoted(RuleQuad(r)), Named(V.ConditionProperty), Serialize(c))
  }

  /** The weight of a rule is stated about its quoted `to` quad as an
      `xsd:double` literal whose text reads back as the weight. */
  lemma WeightQuadReadsBack(r: SceneRule)
    ensures WeightQuad(r).subject == Quoted(RuleQuad(r)) && WeightQuad(r).property == Named(V.Weight)
    ensures WeightQuad(r).obj.Lit? && WeightQuad(r).obj.datatypeIri == V.XsdDouble
    ensures Parse(WeightQuad(r).obj.value) == r.weight
  {
    ParseRender(r.weight);
  }

  /** As written, the weight quad is the corrected one except that its
      object is a language-tagged string, tagged with the datatype IRI. */
  lemma WeightQuadAsWrittenIsTagged(r: SceneRule)
    ensures WeightQuadAsWritten(r)
      == WeightQuad(r).(obj := LangLit(WeightQuad(r).obj.value, WeightQuad(r).obj.datatypeIri))
    ensures !WeightQuadAsWritten(r).obj.Lit? && WeightQuadAsWritten(r) != WeightQuad(r)
  {
  }

  /** A condition of a rule is stated about its quoted `to` quad as a
      condition literal, which decodes back to the condition exactly when the
      codec can carry it. */
  lemma ConditionQuadDecodes(r: SceneRule, c: Condition)
    ensures ConditionQuad(r, c).subject == Quoted(RuleQuad(r))
    ensures ConditionQuad(r, c).property == Named(V.ConditionProperty)
    ensures ConditionQuad(r, c).obj.Lit? && ConditionQuad(r, c).obj.datatypeIri == V.RuleCondition
    ensures Deserialize(ConditionQuad(r, c).obj) == Success(c) <==> Token(c.name) && Encodable(c.operator)
  {
    RoundTrip(c);
  }

  /** Both scene ids of every rule, in rule order. */
  function Endpoints(rules: seq<SceneRule>): (ids: seq<string>)
    ensures |ids| == 2 * |rules|
    ensures forall i | 0 <= i < |rules| :: ids[2 * i] == rules[i].currentScene && ids[2 * i + 1] == rules[i].resultScene
    ensures forall i | 0 <= i < |rules| :: rules[i].currentScene in ids && rules[i].resultScene in ids
  {
    if rules == [] then []
    else [rules[0].currentScene, rules[0].resultScene] + Endpoints(rules[1..])
  }

  /** The distinct scenes, in order of first mention. */
  function Scenes(rules: seq<SceneRule>): seq<string> {
    Dedup(Endpoints(rules))
  }

  function TypeQuads(ids: seq<string>): seq<Quad> {
    seq(|ids|, i requires 0 <= i < |ids| => TypeQuad(ids[i]))
  }

  function WeightQuads(r: SceneRule): seq<Quad> {
    if r.weight != One then [WeightQuad(r)] else []
  }

  function ConditionQuads(r: SceneRule): seq<Quad> {
    ConditionQuadsAbout(RuleQuad(r), r.params)
  }

  /** One condition quad per condition, about the quoted quad `head`. */
  function ConditionQuadsAbout(head: Quad, ps: seq<Condition>): (qs: seq<Quad>)
    ensures |qs| == |ps|
  {
    if ps == [] then []
    else [Quad(Quoted(head), Named(V.ConditionProperty), Serialize(ps[0]))] + ConditionQuadsAbout(head, ps[1..])
  }

  /** The `k`-th condition quad carries the `k`-th condition. */
  lemma {:induction false} ConditionQuadsAboutIndex(head: Quad, ps: seq<Condition>)
    ensures forall k | 0 <= k < |ps| ::
      ConditionQuadsAbout(head, ps)[k] == Quad(Quoted(head), Named(V.ConditionProperty), Serialize(ps[k]))
  {
    if ps != [] {
      ConditionQuadsAboutIndex(head, ps[1..]);
    }
  }

  /** The quads about the `to` quad of a rule. */
  function Attached(r: SceneRule): seq<Quad> {
    WeightQuads(r) + ConditionQuads(r)
  }

  /** The quads of one rule. */
  function RuleBlock(r: SceneRule): seq<Quad> {
    [RuleQuad(r)] + Attached(r)
  }

  function BlockSize(r: SceneRule): nat {
    1 + (if r.weight != One then 1 else 0) + |r.params|
  }

  function TotalSize(rules: seq<SceneRule>): nat {
    if rules == [] then 0 else BlockSize(rules[0]) + TotalSize(rules[1..])
  }

  function RuleQuads(rules: seq<SceneRule>): (qs: seq<Quad>)
    ensures |qs| == TotalSize(rules)
  {
    if rules == [] then [] else RuleBlock(rules[0]) + RuleQuads(rules[1..])
  }

  /** `rulesIntoQuads`. */
  function RulesIntoQuads(rules: seq<SceneRule>): (qs: seq<Quad>)
    ensures |qs| == |Scenes(rules)| + TotalSize(rules)
  {
    TypeQuads(Scenes(rules)) + RuleQuads(rules)
  }

  /** A rule's quads start with its `to` quad. */
  lemma RuleBlockHead(r: SceneRule)
    ensures |RuleBlock(r)| == BlockSize(r)
    ensures RuleBlock(r)[0] == RuleQuad(r)
  {
  }

  /** The weight quad of a rule is among its quads exactly when the weight
      is not one, and then right after the `to` quad. */
  lemma RuleBlockWeight(r: SceneRule)
    ensures WeightQuad(r) in RuleBlock(r) <==> r.weight != One
    ensures r.weight != One ==> RuleBlock(r)[1] == WeightQuad(r)
  {
    var w, c := WeightQuads(r), ConditionQuads(r);
    assert RuleBlock(r) == [RuleQuad(r)] + (w + c);
    assert WeightQuad(r) !in c by {
      ConditionQuadsAboutIndex(RuleQuad(r), r.params);
      V.PropertiesDistinct();
      assert forall q | q in c :: q.property == Named(V.ConditionProperty);
    }
    assert WeightQuad(r) != RuleQuad(r) by {
      V.PropertiesDistinct();
    }
  }

  /** The last quads of a rule are its condition quads, in condition order. */
  lemma RuleBlockConditions(r: SceneRule)
    ensures forall k | 0 <= k < |r.params| ::
      RuleBlock(r)[BlockSize(r) - |r.params| + k] == ConditionQuad(r, r.params[k])
  {
    var w, c := WeightQuads(r), ConditionQuads(r);
    ConditionQuadsAboutIndex(RuleQuad(r), r.params);
    var b := RuleBlock(r);
    var n := 1 + |w|;
    assert BlockSize(r) - |r.params| == n;
    assert b[n..] == c;
    forall k | 0 <= k < |r.params|
      ensures b[n + k] == ConditionQuad(r, r.params[k])
    {
      assert b[n + k] == c[k];
    }
  }

  /** All quads after the `to` quad are about the quoted `to` quad, and no
      quad of the block is a type quad. */
  lemma AttachedAbout(r: SceneRule)
    ensures forall q | q in Attached(r) :: q.subject == Quoted(RuleQuad(r))
    ensures forall q | q in RuleBlock(r) :: q.property != Named(V.RdfType)
  {
    V.PropertiesDistinct();
    ConditionQuadsAboutIndex(RuleQuad(r), r.params);
    assert forall q | q in ConditionQuads(r) :: q.property == Named(V.ConditionProperty);
  }

  /** No rule quad is a type quad. */
  lemma {:induction false} RuleQuadsAreNotTypeQuads(rules: seq<SceneRule>)
    ensures forall q | q in RuleQuads(rules) :: q.property != Named(V.RdfType)
  {
    if rules != [] {
      AttachedAbout(rules[0]);
      RuleQuadsAreNotTypeQuads(rules[1..]);
    }
  }

  /** Every `to` quad of the rule part is the `to` quad of one of the rules. */
  lemma {:induction false} ToQuadsComeFromRules(rules: seq<SceneRule>)
    ensures forall q | q in RuleQuads(rules) && q.property == Named(V.To) ::
      exists i | 0 <= i < |rules| :: q == RuleQuad(rules[i])
  {
    if rules != [] {
      V.PropertiesDistinct();
      ToQuadsComeFromRules(rules[1..]);
      var b := RuleBlock(rules[0]);
      forall q | q in RuleQuads(rules) && q.property == Named(V.To)
        ensures exists i | 0 <= i < |rules| :: q == RuleQuad(rules[i])
      {
        if q in RuleQuads(rules[1..]) {
          var i :| 0 <= i < |rules[1..]| && q == RuleQuad(rules[1..][i]);
          assert q == RuleQuad(rules[i + 1]);
        } else {
          assert q in b;
          ConditionQuadsAboutIndex(RuleQuad(rules[0]), rules[0].params);
          assert forall c | c in ConditionQuads(rules[0]) :: c.property == Named(V.ConditionProperty);
          assert q == RuleQuad(rules[0]);
        }
      }
    }
  }

  /** The rule part of a concatenation is the concatenation of the rule parts. */
  lemma {:induction false} RuleQuadsOfConcat(a: seq<SceneRule>, b: seq<SceneRule>)
    ensures RuleQuads(a + b) == RuleQuads(a) + RuleQuads(b)
  {
    if a == [] {
      assert a + b == b;
    } else {
      assert (a + b)[0] == a[0];
      assert (a + b)[1..] == a[1..] + b;
      RuleQuadsOfConcat(a[1..], b);
    }
  }

  /** Type quads come first, one per distinct scene in order of first
      mention, and nothing after them is a type quad. */
  lemma TypeQuadsFirst(rules: seq<SceneRule>)
    ensures forall i | 0 <= i < |Scenes(rules)| :: RulesIntoQuads(rules)[i] == TypeQuad(Scenes(rules)[i])
    ensures forall i | 0 <= i < |RulesIntoQuads(rules)| ::
      RulesIntoQuads(rules)[i].property == Named(V.RdfType) <==> i < |Scenes(rules)|
  {
    var qs := RulesIntoQuads(rules);
    var n := |Scenes(rules)|;
    var tail := RuleQuads(rules);
    RuleQuadsAreNotTypeQuads(rules);
    forall i | n <= i < |qs|
      ensures qs[i].property != Named(V.RdfType)
    {
      assert qs[i] == tail[i - n];
    }
  }

  /** Each scene that some rule mentions has exactly one type quad, and no
      other scene has one. */
  lemma TypeQuadsExactlyOnce(rules: seq<SceneRule>, id: string)
    ensures multiset(RulesIntoQuads(rules))[TypeQuad(id)] == if id in Endpoints(rules) then 1 else 0
  {
    var types := TypeQuads(Scenes(rules));
    TypeQuadsOfDistinct(Scenes(rules), id);
    NoDupMultiplicity(types, TypeQuad(id));
    RuleQuadsAreNotTypeQuads(rules);
    assert TypeQuad(id) !in RuleQuads(rules);
    assert multiset(RulesIntoQuads(rules)) == multiset(types) + multiset(RuleQuads(rules));
  }

  /** Distinct scenes get distinct type quads, and a scene has one among
      them exactly when it is listed. */
  lemma TypeQuadsOfDistinct(scenes: seq<string>, id: string)
    requires NoDup(scenes)
    ensures NoDup(TypeQuads(scenes))
    ensures TypeQuad(id) in TypeQuads(scenes) <==> id in scenes
  {
    var types := TypeQuads(scenes);
    forall i, j | 0 <= i < j < |types|
      ensures types[i] != types[j]
    {
      SceneIriInjective(scenes[i], scenes[j]);
    }
    if TypeQuad(id) in types {
      var i :| 0 <= i < |types| && types[i] == TypeQuad(id);
      SceneIriInjective(scenes[i], id);
    }
    if id in scenes {
      var i :| 0 <= i < |scenes| && scenes[i] == id;
      assert types[i] == TypeQuad(id);
    }
  }

  /** Every scene some rule mentions has its type quad. */
  lemma EndpointTyped(rules: seq<SceneRule>, id: string)
    requires id in Endpoints(rules)
    ensures TypeQuad(id) in RulesIntoQuads(rules)
  {
    var scenes := Scenes(rules);
    var a :| 0 <= a < |scenes| && scenes[a] == id;
    assert RulesIntoQuads(rules)[a] == TypeQuads(scenes)[a];
  }

  /** Both endpoints of every `to` quad are declared scenes of the same output. */
  lemma RuleEndpointsAreTyped(rules: seq<SceneRule>)
    ensures forall q | q in RulesIntoQuads(rules) && q.property == Named(V.To) ::
      && Quad(q.subject, Named(V.RdfType), Named(V.Scene)) in RulesIntoQuads(rules)
      && Quad(q.obj, Named(V.RdfType), Named(V.Scene)) in RulesIntoQuads(rules)
  {
    var qs := RulesIntoQuads(rules);
    forall q | q in qs && q.property == Named(V.To)
      ensures Quad(q.subject, Named(V.RdfType), Named(V.Scene)) in qs
      ensures Quad(q.obj, Named(V.RdfType), Named(V.Scene)) in qs
    {
      assert q in RuleQuads(rules) by {
        V.PropertiesDistinct();
        assert q !in TypeQuads(Scenes(rules));
      }
      ToQuadsComeFromRules(rules);
      var i :| 0 <= i < |rules| && q == RuleQuad(rules[i]);
      EndpointTyped(rules, rules[i].currentScene);
      EndpointTyped(rules, rules[i].resultScene);
    }
  }

  /** The block of the `j`-th rule sits right after the blocks of the rules
      before it and right before those of the rules after it. */
  lemma RuleBlockPosition(rules: seq<SceneRule>, j: nat)
    requires j < |rules|
    ensures RulesIntoQuads(rules)
      == TypeQuads(Scenes(rules)) + (RuleQuads(rules[..j]) + (RuleBlock(rules[j]) + RuleQuads(rules[j + 1..])))
  {
    var rest := [rules[j]] + rules[j + 1..];
    assert rules == rules[..j] + rest;
    RuleQuadsOfConcat(rules[..j], rest);
    assert rest[0] == rules[j] && rest[1..] == rules[j + 1..];
    var t, a, b, c := TypeQuads(Scenes(rules)), RuleQuads(rules[..j]), RuleBlock(rules[j]), RuleQuads(rules[j + 1..]);
    assert RuleQuads(rest) == b + c;
    assert RuleQuads(rules) == a + (b + c);
  }

  /** Every type quad of the projection types its node with the class the
      schema declares. */
  lemma SchemaClassTypesAllScenes(rules: seq<SceneRule>)
    ensures forall q | q in RulesIntoQuads(rules) && q.property == Named(V.RdfType) ::
      q.obj == MakeSceneSchema()[0].subject
  {
    RuleQuadsAreNotTypeQuads(rules);
  }

  // Reading a projection back. The source has no such function; ReadRules
  // inverts the projection, which shows that the projection keeps every
  // rule field.

  /** Number of leading type quads. */
  function TypePrefixLen(qs: seq<Quad>): (n: nat)
    ensures n <= |qs|
  {
    if qs != [] && qs[0].property == Named(V.RdfType) then 1 + TypePrefixLen(qs[1..]) else 0
  }

  /** Number of leading quads about the quoted quad `head`. */
  function AttachedLen(qs: seq<Quad>, head: Quad): (n: nat)
    ensures n <= |qs|
  {
    if qs != [] && qs[0].subject == Quoted(head) then 1 + AttachedLen(qs[1..], head) else 0
  }

  /** The conditions of consecutive condition quads. */
  function ReadConditions(qs: seq<Quad>): Option<seq<Condition>> {
    if qs == [] then Some([])
    else if qs[0].property == Named(V.ConditionProperty) && qs[0].obj.Lit? then
      match Deserialize(qs[0].obj)
      case Failure(_) => None
      case Success(c) =>
        var rest :- ReadConditions(qs[1..]);
        Some([c] + rest)
    else None
  }

  /** The rule of a `to` quad and the quads about it; a missing weight is one. */
  function ReadRule(head: Quad, attached: seq<Quad>): Option<SceneRule> {
    if head.property != Named(V.To) then None
    else
      var from :- SceneIdOf(head.subject);
      var to :- SceneIdOf(head.obj);
      if attached != [] && attached[0].property == Named(V.Weight) && attached[0].obj.Lit? then
        var params :- ReadConditions(attached[1..]);
        Some(SceneRule(from, to, Parse(attached[0].obj.value), params))
      else
        var params :- ReadConditions(attached);
        Some(SceneRule(from, to, One, params))
  }

  function ReadBlocks(qs: seq<Quad>): Option<seq<SceneRule>>
    decreases |qs|
  {
    if qs == [] then Some([])
    else
      var n := AttachedLen(qs[1..], qs[0]);
      var rule :- ReadRule(qs[0], qs[1..][..n]);
      var rest :- ReadBlocks(qs[1..][n..]);
      Some([rule] + rest)
  }

  /** The rule list a projection describes. */
  function ReadRules(qs: seq<Quad>): Option<seq<SceneRule>> {
    ReadBlocks(qs[TypePrefixLen(qs)..])
  }

  /** Every condition of every rule survives the condition codec. */
  predicate CodableConditions(ps: seq<Condition>) {
    forall k | 0 <= k < |ps| :: Token(ps[k].name) && Encodable(ps[k].operator)
  }

  predicate Codable(rules: seq<SceneRule>) {
    forall i | 0 <= i < |rules| :: CodableConditions(rules[i].params)
  }

  lemma {:induction false} TypePrefixLenOfConcat(a: seq<Quad>, b: seq<Quad>)
    requires forall q | q in a :: q.property == Named(V.RdfType)
    requires b == [] || b[0].property != Named(V.RdfType)
    ensures TypePrefixLen(a + b) == |a|
  {
    if a == [] {
      assert a + b == b;
    } else {
      assert (a + b)[0] == a[0];
      assert (a + b)[1..] == a[1..] + b;
      TypePrefixLenOfConcat(a[1..], b);
    }
  }

  lemma {:induction false} AttachedLenOfConcat(a: seq<Quad>, b: seq<Quad>, head: Quad)
    requires forall q | q in a :: q.subject == Quoted(head)
    requires b == [] || b[0].subject != Quoted(head)
    ensures AttachedLen(a + b, head) == |a|
  {
    if a == [] {
      assert a + b == b;
    } else {
      assert (a + b)[0] == a[0];
      assert (a + b)[1..] == a[1..] + b;
      AttachedLenOfConcat(a[1..], b, head);
    }
  }

  /** Reading one more condition quad in front. */
  lemma ReadConditionsCons(q: Quad, rest: seq<Quad>, c: Condition, cs: seq<Condition>)
    requires q.property == Named(V.ConditionProperty) && q.obj == Serialize(c)
    requires Token(c.name) && Encodable(c.operator)
    requires ReadConditions(rest) == Some(cs)
    ensures ReadConditions([q] + rest) == Some([c] + cs)
  {
    RoundTrip(c);
    assert ([q] + rest)[1..] == rest;
  }

  lemma ConditionQuadsAboutCons(head: Quad, ps: seq<Condition>)
    requires ps != []
    ensures ConditionQuadsAbout(head, ps)
      == [Quad(Quoted(head), Named(V.ConditionProperty), Serialize(ps[0]))] + ConditionQuadsAbout(head, ps[1..])
  {
  }

  lemma CodableConditionsCons(ps: seq<Condition>)
    requires ps != [] && CodableConditions(ps)
    ensures Token(ps[0].name) && Encodable(ps[0].operator)
    ensures CodableConditions(ps[1..])
  {
    assert forall k | 0 <= k < |ps[1..]| :: ps[1..][k] == ps[k + 1];
  }

  /** Reading one more condition quad in front of the quads of the rest. */
  lemma ReadConditionsStep(head: Quad, ps: seq<Condition>)
    requires ps != [] && Token(ps[0].name) && Encodable(ps[0].operator)
    requires ReadConditions(ConditionQuadsAbout(head, ps[1..])) == Some(ps[1..])
    ensures ReadConditions(ConditionQuadsAbout(head, ps)) == Some(ps)
  {
    var q := Quad(Quoted(head), Named(V.ConditionProperty), Serialize(ps[0]));
    var rest, cs := ConditionQuadsAbout(head, ps[1..]), ps[1..];
    ConditionQuadsAboutCons(head, ps);
    ReadConditionsCons(q, rest, ps[0], cs);
    assert ps == [ps[0]] + cs;
  }

  lemma {:induction false} ReadConditionsOfQuads(head: Quad, ps: seq<Condition>)
    requires CodableConditions(ps)
    ensures ReadConditions(ConditionQuadsAbout(head, ps)) == Some(ps)
  {
    if ps != [] {
      CodableConditionsCons(ps);
      ReadConditionsOfQuads(head, ps[1..]);
      ReadConditionsStep(head, ps);
    }
  }

  lemma ReadRuleWeighted(head: Quad, attached: seq<Quad>, from: string, to: string, params: seq<Condition>)
    requires head.property == Named(V.To)
    requires SceneIdOf(head.subject) == Some(from) && SceneIdOf(head.obj) == Some(to)
    requires attached != [] && attached[0].property == Named(V.Weight) && attached[0].obj.Lit?
    requires ReadConditions(attached[1..]) == Some(params)
    ensures ReadRule(head, attached) == Some(SceneRule(from, to, Parse(attached[0].obj.value), params))
  {
  }

  lemma ReadRuleUnweighted(head: Quad, attached: seq<Quad>, from: string, to: string, params: seq<Condition>)
    requires head.property == Named(V.To)
    requires SceneIdOf(head.subject) == Some(from) && SceneIdOf(head.obj) == Some(to)
    requires attached == [] || attached[0].property != Named(V.Weight)
    requires ReadConditions(attached) == Some(params)
    ensures ReadRule(head, attached) == Some(SceneRule(from, to, One, params))
  {
  }

  /** A rule is read back from its own block. */
  lemma ReadRuleOfBlock(r: SceneRule)
    requires CodableConditions(r.params)
    ensures ReadRule(RuleQuad(r), Attached(r)) == Some(r)
  {
    var head := RuleQuad(r);
    var conds := ConditionQuads(r);
    V.PropertiesDistinct();
    SceneIdOfSceneIri(r.currentScene);
    SceneIdOfSceneIri(r.resultScene);
    ReadConditionsOfQuads(head, r.params);
    if r.weight != One {
      var attached := Attached(r);
      assert attached == [WeightQuad(r)] + conds;
      assert attached[1..] == conds;
      ParseRender(r.weight);
      ReadRuleWeighted(head, attached, r.currentScene, r.resultScene, r.params);
    } else {
      assert Attached(r) == conds;
      assert conds == [] || conds[0].property == Named(V.ConditionProperty);
      ReadRuleUnweighted(head, conds, r.currentScene, r.resultScene, r.params);
    }
  }

  /** Reading one more block in front. */
  lemma ReadBlocksCons(head: Quad, tail: seq<Quad>, rest: seq<Quad>, r: SceneRule, rs: seq<SceneRule>)
    requires forall q | q in tail :: q.subject == Quoted(head)
    requires rest == [] || rest[0].subject != Quoted(head)
    requires ReadRule(head, tail) == Some(r)
    requires ReadBlocks(rest) == Some(rs)
    ensures ReadBlocks([head] + (tail + rest)) == Some([r] + rs)
  {
    var qs := [head] + (tail + rest);
    assert qs[1..] == tail + rest;
    AttachedLenOfConcat(tail, rest, head);
    assert qs[1..][..|tail|] == tail;
    assert qs[1..][|tail|..] == rest;
  }

  /** The rule part starts with the `to` quad of the first rule. */
  lemma RuleQuadsHead(rules: seq<SceneRule>)
    requires rules != []
    ensures RuleQuads(rules) == [RuleQuad(rules[0])] + (Attached(rules[0]) + RuleQuads(rules[1..]))
  {
    var r := rules[0];
    assert RuleQuads(rules) == ([RuleQuad(r)] + Attached(r)) + RuleQuads(rules[1..]);
  }

  /** The rule part after the first block starts with a quad that is not
      about the first rule's `to` quad. */
  lemma RuleQuadsTailStart(rules: seq<SceneRule>)
    requires rules != []
    ensures RuleQuads(rules[1..]) == [] || RuleQuads(rules[1..])[0].subject != Quoted(RuleQuad(rules[0]))
  {
    if rules[1..] != [] {
      RuleQuadsHead(rules[1..]);
    }
  }

  lemma CodableCons(rules: seq<SceneRule>)
    requires rules != [] && Codable(rules)
    ensures CodableConditions(rules[0].params) && Codable(rules[1..])
  {
    assert forall i | 0 <= i < |rules[1..]| :: rules[1..][i] == rules[i + 1];
  }

  lemma {:induction false} ReadBlocksOfRuleQuads(rules: seq<SceneRule>)
    requires Codable(rules)
    ensures ReadBlocks(RuleQuads(rules)) == Some(rules)
  {
    if rules != [] {
      var r, rs := rules[0], rules[1..];
      RuleQuadsHead(rules);
      RuleQuadsTailStart(rules);
      AttachedAbout(r);
      CodableCons(rules);
      ReadRuleOfBlock(r);
      ReadBlocksOfRuleQuads(rs);
      ReadBlocksCons(RuleQuad(r), Attached(r), RuleQuads(rs), r, rs);
      assert [r] + rs == rules;
    }
  }

  /** The projection loses nothing: reading it back gives the rule list,
      with an omitted weight read as one, whenever the conditions survive
      the condition codec. */
  lemma ProjectionRoundTrip(rules: seq<SceneRule>)
    requires Codable(rules)
    ensures ReadRules(RulesIntoQuads(rules)) == Some(rules)
  {
    var types := TypeQuads(Scenes(rules));
    var rest := RuleQuads(rules);
    if rules != [] {
      RuleQuadsHead(rules);
    }
    V.PropertiesDistinct();
    TypePrefixLenOfConcat(types, rest);
    assert RulesIntoQuads(rules)[|types|..] == rest;
    ReadBlocksOfRuleQuads(rules);
  }

  // The projection as literally written, with the language-tagged weight
  // literal (see WeightQuadAsWritten).

  function WeightQuadsAsWritten(r: SceneRule): seq<Quad> {
    if r.weight != One then [WeightQuadAsWritten(r)] else []
  }

  function AttachedAsWritten(r: SceneRule): seq<Quad> {
    WeightQuadsAsWritten(r) + ConditionQuads(r)
  }

  function RuleBlockAsWritten(r: SceneRule): seq<Quad> {
    [RuleQuad(r)] + AttachedAsWritten(r)
  }

  function RuleQuadsAsWritten(rules: seq<SceneRule>): (qs: seq<Quad>)
    ensures |qs| == TotalSize(rules)
  {
    if rules == [] then [] else RuleBlockAsWritten(rules[0]) + RuleQuadsAsWritten(rules[1..])
  }

  /** `rulesIntoQuads` as written: the same quads, except that each weight
      quad carries the language-tagged literal. */
  function RulesIntoQuadsAsWritten(rules: seq<SceneRule>): (qs: seq<Quad>)
    ensures |qs| == |RulesIntoQuads(rules)|
  {
    TypeQuads(Scenes(rules)) + RuleQuadsAsWritten(rules)
  }

  /** Without weights other than one, no weight quad is emitted and the
      literal projection is the corrected one. */
  lemma {:induction false} AsWrittenAgreesWithoutWeights(rules: seq<SceneRule>)
    requires forall i | 0 <= i < |rules| :: rules[i].weight == One
    ensures RulesIntoQuadsAsWritten(rules) == RulesIntoQuads(rules)
  {
    RuleQuadsAsWrittenWithoutWeights(rules);
  }

  lemma {:induction false} RuleQuadsAsWrittenWithoutWeights(rules: seq<SceneRule>)
    requires forall i | 0 <= i < |rules| :: rules[i].weight == One
    ensures RuleQuadsAsWritten(rules) == RuleQuads(rules)
  {
    if rules != [] {
      assert forall i | 0 <= i < |rules[1..]| :: rules[1..][i] == rules[i + 1];
      RuleQuadsAsWrittenWithoutWeights(rules[1..]);
      assert RuleBlockAsWritten(rules[0]) == RuleBlock(rules[0]);
    }
  }

  /** The literal rule part starts with the `to` quad of the first rule. */
  lemma RuleQuadsAsWrittenHead(rules: seq<SceneRule>)
    requires rules != []
    ensures RuleQuadsAsWritten(rules)
      == [RuleQuad(rules[0])] + (AttachedAsWritten(rules[0]) + RuleQuadsAsWritten(rules[1..]))
  {
    var r := rules[0];
    assert RuleQuadsAsWritten(rules) == ([RuleQuad(r)] + AttachedAsWritten(r)) + RuleQuadsAsWritten(rules[1..]);
  }

  /** A rule whose weight is not one is not read back from its literal block:
      its weight literal is not a typed literal, and a weight quad is not a
      condition quad. */
  lemma ReadRuleAsWrittenFails(r: SceneRule)
    requires r.weight != One
    ensures ReadRule(RuleQuad(r), AttachedAsWritten(r)) == None
  {
    var attached := AttachedAsWritten(r);
    assert attached[0] == WeightQuadAsWritten(r);
    V.PropertiesDistinct();
    SceneIdOfSceneIri(r.currentScene);
    SceneIdOfSceneIri(r.resultScene);
  }

  /** A failing block makes the whole read fail. */
  lemma ReadBlocksConsFails(head: Quad, tail: seq<Quad>, rest: seq<Quad>)
    requires forall q | q in tail :: q.subject == Quoted(head)
    requires rest == [] || rest[0].subject != Quoted(head)
    requires ReadRule(head, tail) == None || ReadBlocks(rest) == None
    ensures ReadBlocks([head] + (tail + rest)) == None
  {
    var qs := [head] + (tail + rest);
    assert qs[1..] == tail + rest;
    AttachedLenOfConcat(tail, rest, head);
    assert qs[1..][..|tail|] == tail;
    assert qs[1..][|tail|..] == rest;
  }

  lemma {:induction false} ReadBlocksAsWrittenFails(rules: seq<SceneRule>, i: nat)
    requires i < |rules| && rules[i].weight != One
    ensures ReadBlocks(RuleQuadsAsWritten(rules)) == None
  {
    var r := rules[0];
    RuleQuadsAsWrittenHead(rules);
    RuleQuadsAsWrittenTailStart(rules);
    AttachedAsWrittenAbout(r);
    if i == 0 {
      ReadRuleAsWrittenFails(r);
    } else {
      assert rules[1..][i - 1] == rules[i];
      ReadBlocksAsWrittenFails(rules[1..], i - 1);
    }
    ReadBlocksConsFails(RuleQuad(r), AttachedAsWritten(r), RuleQuadsAsWritten(rules[1..]));
  }

  lemma RuleQuadsAsWrittenTailStart(rules: seq<SceneRule>)
    requires rules != []
    ensures RuleQuadsAsWritten(rules[1..]) == [] || RuleQuadsAsWritten(rules[1..])[0].subject != Quoted(RuleQuad(rules[0]))
  {
    if rules[1..] != [] {
      RuleQuadsAsWrittenHead(rules[1..]);
    }
  }

  lemma AttachedAsWrittenAbout(r: SceneRule)
    ensures forall q | q in AttachedAsWritten(r) :: q.subject == Quoted(RuleQuad(r))
  {
    ConditionQuadsAboutIndex(RuleQuad(r), r.params);
  }

  /** As written, the projection of any rule list with a weight other than
      one cannot be read back: the weight is lost, and the conditions with it. */
  lemma AsWrittenUnreadableWithWeights(rules: seq<SceneRule>, i: nat)
    requires i < |rules| && rules[i].weight != One
    ensures ReadRules(RulesIntoQuadsAsWritten(rules)) == None
  {
    var types := TypeQuads(Scenes(rules));
    var rest := RuleQuadsAsWritten(rules);
    RuleQuadsAsWrittenHead(rules);
    V.PropertiesDistinct();
    TypePrefixLenOfConcat(types, rest);
    assert RulesIntoQuadsAsWritten(rules)[|types|..] == rest;
    ReadBlocksAsWrittenFails(rules, i);
  }
}

=== FILE: sequences.dfy ===
/** Generic facts about sequences: duplicates, first occurrences, removing
    duplicates in first-occurrence order, and order-preserving filtering. */
module Sequences {

  predicate NoDup<T(==)>(s: seq<T>) {
    forall i, j | 0 <= i < j < |s| :: s[i] != s[j]
  }

  /** Position of the first occurrence of `x` in `s`. */
  function FirstIndex<T(==)>(s: seq<T>, x: T): (k: nat)
    requires x in s
    ensures k < |s| && s[k] == x && x !in s[..k]
  {
    if s[0] == x then 0 else 1 + FirstIndex(s[1..], x)
  }

  /** The first occurrence is the one position holding `x` with no `x` before it. */
  lemma {:induction false} FirstIndexUnique<T>(s: seq<T>, x: T, k: nat)
    requires k < |s| && s[k] == x && x !in s[..k]
    ensures FirstIndex(s, x) == k
  {
    if k > 0 {
      assert s[0] == s[..k][0];
      assert s[1..][..k - 1] == s[1..k];
      assert forall i | 1 <= i < k :: s[..k][i] == s[i];
      FirstIndexUnique(s[1..], x, k - 1);
    }
  }

  /** Appending an element does not move earlier first occurrences. */
  lemma FirstIndexOfAppend<T>(s: seq<T>, x: T, y: T)
    requires y in s
    ensures FirstIndex(s + [x], y) == FirstIndex(s, y)
  {
    var k := FirstIndex(s, y);
    assert (s + [x])[..k] == s[..k];
    FirstIndexUnique(s + [x], y, k);
  }

  /** The distinct elements of `s`, each where it first occurs, in the order
      of those first occurrences (what iterating a JavaScript `Set` filled from
      `s` yields). */
  function Dedup<T(==,!new)>(s: seq<T>): (r: seq<T>)
    ensures NoDup(r)
    ensures forall x :: x in r <==> x in s
    ensures forall i, j | 0 <= i < j < |r| :: FirstIndex(s, r[i]) < FirstIndex(s, r[j])
  {
    if s == [] then []
    else
      var init := s[..|s| - 1];
      var x := s[|s| - 1];
      var d := Dedup(init);
      assert s == init + [x];
      FirstIndexesOfAppend(init, x, d);
      if x in d then d
      else
        assert FirstIndex(s, x) == |s| - 1;
        d + [x]
  }

  lemma FirstIndexesOfAppend<T>(s: seq<T>, x: T, d: seq<T>)
    requires forall y :: y in d ==> y in s
    ensures forall i | 0 <= i < |d| :: FirstIndex(s + [x], d[i]) == FirstIndex(s, d[i])
  {
    forall i | 0 <= i < |d|
      ensures FirstIndex(s + [x], d[i]) == FirstIndex(s, d[i])
    {
      FirstIndexOfAppend(s, x, d[i]);
    }
  }

  /** In a sequence without duplicates every element occurs exactly once. */
  lemma {:induction false} NoDupMultiplicity<T>(s: seq<T>, x: T)
    requires NoDup(s)
    ensures multiset(s)[x] == if x in s then 1 else 0
  {
    if s != [] {
      assert s == [s[0]] + s[1..];
      assert NoDup(s[1..]);
      NoDupMultiplicity(s[1..], x);
      assert s[0] !in s[1..];
    }
  }

  /** The elements of `s` that `keep` accepts, in their original order. */
  function Filter<T(!new)>(s: seq<T>, keep: T -> bool): (r: seq<T>)
    ensures |r| <= |s|
    ensures forall x :: x in r <==> x in s && keep(x)
  {
    if s == [] then []
    else (if keep(s[0]) then [s[0]] else []) + Filter(s[1..], keep)
  }

  /** Filtering commutes with concatenation, so relative order is kept. */
  lemma {:induction false} FilterOfConcat<T(!new)>(a: seq<T>, b: seq<T>, keep: T -> bool)
    ensures Filter(a + b, keep) == Filter(a, keep) + Filter(b, keep)
  {
    if a == [] {
      assert a + b == b;
    } else {
      assert (a + b)[0] == a[0];
      assert (a + b)[1..] == a[1..] + b;
      FilterOfConcat(a[1..], b, keep);
    }
  }

  /** Filtering removes something exactly when some element is rejected. */
  lemma {:induction false} FilterUnchangedIff<T(!new)>(s: seq<T>, keep: T -> bool)
    ensures Filter(s, keep) == s <==> forall i | 0 <= i < |s| :: keep(s[i])
  {
    if s != [] {
      FilterUnchangedIff(s[1..], keep);
      if !keep(s[0]) {
        assert |Filter(s, keep)| < |s|;
      }
    }
  }

  /** Filtering twice with the same predicate is filtering once. */
  lemma {:induction false} FilterIdempotent<T(!new)>(s: seq<T>, keep: T -> bool)
    ensures Filter(Filter(s, keep), keep) == Filter(s, keep)
  {
    FilterUnchangedIff(Filter(s, keep), keep);
  }

  /** Filtering depends only on what the predicate says about the elements
      actually present. */
  lemma {:induction false} FilterCongruent<T(!new)>(s: seq<T>, p: T -> bool, q: T -> bool)
    requires forall i | 0 <= i < |s| :: p(s[i]) == q(s[i])
    ensures Filter(s, p) == Filter(s, q)
  {
    if s != [] {
      assert p(s[0]) == q(s[0]);
      FilterCongruent(s[1..], p, q);
    }
  }
}

=== FILE: text.dfy ===
/**
  Characters and strings as JavaScript sees them: the `\s` class of regular
  expressions, maximal runs of (non-)whitespace, `String.prototype.trim`-style
  trimming, and decimal digit strings.
*/
module Text {

  /** The ECMAScript WhiteSpace and LineTerminator code points: exactly what
      `\s` matches and what `Number()` strips before parsing. */
  predicate IsWs(c: char) {
    || c == ' ' || c == '\t' || c == '\n' || c == '\r' || c == '\U{B}' || c == '\U{C}'
    || c == '\U{A0}' || c == '\U{1680}' || ('\U{2000}' <= c <= '\U{200A}')
    || c == '\U{2028}' || c == '\U{2029}' || c == '\U{202F}' || c == '\U{205F}'
    || c == '\U{3000}' || c == '\U{FEFF}'
  }

  /** Every character of `s` is whitespace (`ws`) or every one is not (`!ws`). */
  predicate IsRun(s: string, ws: bool) {
    forall i | 0 <= i < |s| :: WsAt(s, i) == ws
  }

  /** Whether the character at `i` is whitespace; quantifiers over positions
      hang on this rather than on every indexing of `s`. */
  predicate WsAt(s: string, i: nat)
    requires i < |s|
  {
    IsWs(s[i])
  }

  predicate NoWs(s: string) {
    IsRun(s, false)
  }

  predicate AllWs(s: string) {
    IsRun(s, true)
  }

  /** A non-empty whitespace-free string: what `[^\s]+` matches. */
  predicate Token(s: string) {
    |s| > 0 && NoWs(s)
  }

  /** Length of the longest prefix of `s` whose characters are all whitespace
      (`ws`) or all non-whitespace (`!ws`). */
  function RunLen(s: string, ws: bool): (n: nat)
    ensures n <= |s|
  {
    if s == [] || IsWs(s[0]) != ws then 0 else 1 + RunLen(s[1..], ws)
  }

  /** The run is of the requested kind and stops at the first character
      that is not. */
  lemma {:induction false} RunLenSpec(s: string, ws: bool)
    ensures IsRun(s[..RunLen(s, ws)], ws)
    ensures RunLen(s, ws) < |s| ==> WsAt(s, RunLen(s, ws)) != ws
  {
    if s != [] && IsWs(s[0]) == ws {
      var n := RunLen(s, ws);
      RunLenSpec(s[1..], ws);
      assert forall i | 1 <= i < n :: WsAt(s[1..][..n - 1], i - 1) == WsAt(s[..n], i);
      assert n < |s| ==> WsAt(s[1..], n - 1) == WsAt(s, n);
    }
  }

  /** A run is determined by where it stops: if `a` is made only of characters
      of the requested kind and `b` does not continue it, the run is `a`. */
  lemma {:induction false} RunLenOfConcat(a: string, b: string, ws: bool)
    requires IsRun(a, ws)
    requires b == [] || WsAt(b, 0) != ws
    ensures RunLen(a + b, ws) == |a|
  {
    if a == [] {
      assert a + b == b;
    } else {
      assert WsAt(a, 0) == ws;
      assert (a + b)[0] == a[0];
      assert (a + b)[1..] == a[1..] + b;
      assert forall i | 0 <= i < |a| - 1 :: WsAt(a[1..], i) == WsAt(a, i + 1);
      RunLenOfConcat(a[1..], b, ws);
    }
  }

  /** Prefixing keeps the first character. */
  lemma WsAtHead(a: string, b: string)
    requires |a| > 0
    ensures WsAt(a + b, 0) == WsAt(a, 0)
  {
    assert (a + b)[0] == a[0];
  }

  /** Splits `s` into its longest run of the requested kind and the rest. */
  function TakeRun(s: string, ws: bool): (string, string) {
    var n := RunLen(s, ws);
    (s[..n], s[n..])
  }

  /** The run and the rest make up `s`; the run is maximal. */
  lemma TakeRunSpec(s: string, ws: bool)
    ensures TakeRun(s, ws).0 + TakeRun(s, ws).1 == s
    ensures IsRun(TakeRun(s, ws).0, ws)
    ensures TakeRun(s, ws).1 == [] || WsAt(TakeRun(s, ws).1, 0) != ws
  {
    var n := RunLen(s, ws);
    RunLenSpec(s, ws);
    assert s[..n] + s[n..] == s;
    if n < |s| {
      assert s[n..][0] == s[n];
    }
  }

  /** The run taken from `a + b` is `a` when `b` does not continue it. */
  lemma TakeRunOfConcat(a: string, b: string, ws: bool)
    requires IsRun(a, ws)
    requires b == [] || WsAt(b, 0) != ws
    ensures TakeRun(a + b, ws) == (a, b)
  {
    RunLenOfConcat(a, b, ws);
    assert (a + b)[..|a|] == a;
    assert (a + b)[|a|..] == b;
  }

  /** Length of the longest whitespace suffix of `s`. */
  function TrailingWsLen(s: string): (n: nat)
    ensures n <= |s|
    ensures forall i | |s| - n <= i < |s| :: IsWs(s[i])
    ensures n < |s| ==> !IsWs(s[|s| - n - 1])
  {
    if s == [] || !IsWs(s[|s| - 1]) then 0 else 1 + TrailingWsLen(s[..|s| - 1])
  }

  /** `s` without leading and trailing whitespace. */
  function Trim(s: string): (t: string)
    ensures |t| <= |s|
    ensures t == [] || (!IsWs(t[0]) && !IsWs(t[|t| - 1]))
  {
    var start := s[RunLen(s, true)..];
    RunLenSpec(s, true);
    assert start != [] ==> !WsAt(s, RunLen(s, true)) && start[0] == s[RunLen(s, true)];
    start[..|start| - TrailingWsLen(start)]
  }

  lemma TrimOfNoWs(s: string)
    requires NoWs(s)
    ensures Trim(s) == s
  {
    assert s == [] + s;
    RunLenOfConcat([], s, true);
    if s != [] {
      assert !WsAt(s, |s| - 1);
    }
  }

  predicate IsDigit(c: char) {
    '0' <= c <= '9'
  }

  predicate IsDigits(s: string) {
    |s| > 0 && forall i | 0 <= i < |s| :: IsDigit(s[i])
  }

  function DigitChar(d: nat): (c: char)
    requires d < 10
    ensures IsDigit(c)
  {
    (48 + d) as char
  }

  function DigitValue(c: char): (d: nat)
    requires IsDigit(c)
    ensures d < 10
  {
    c as int - 48
  }

  /** The shortest decimal rendering of `n`, as `String(n)` writes it. */
  function NatDigits(n: nat): (s: string)
    ensures IsDigits(s)
    ensures |s| > 1 ==> s[0] != '0'
  {
    if n < 10 then [DigitChar(n)] else NatDigits(n / 10) + [DigitChar(n % 10)]
  }

  /** The number a string of decimal digits denotes (leading zeros allowed). */
  function DigitsValue(s: string): nat
    requires forall i | 0 <= i < |s| :: IsDigit(s[i])
  {
    if s == [] then 0 else 10 * DigitsValue(s[..|s| - 1]) + DigitValue(s[|s| - 1])
  }

  function Pow10(k: nat): (p: nat)
    ensures p >= 1
  {
    if k == 0 then 1 else 10 * Pow10(k - 1)
  }

  /** Reading back a rendered natural number gives the number. */
  lemma {:induction false} DigitsValueOfNatDigits(n: nat)
    ensures DigitsValue(NatDigits(n)) == n
  {
    if n >= 10 {
      var s := NatDigits(n);
      assert s[..|s| - 1] == NatDigits(n / 10);
      DigitsValueOfNatDigits(n / 10);
    }
  }

  /** Rendering is exactly as long as the number's magnitude says. */
  lemma {:induction false} NatDigitsLength(n: nat, k: nat)
    requires Pow10(k) <= n < Pow10(k + 1)
    ensures |NatDigits(n)| == k + 1
  {
    if k > 0 {
      NatDigitsLength(n / 10, k - 1);
    }
  }

  /** A leading digit contributes its value times the weight of its position. */
  lemma {:induction false} DigitsValueOfCons(c: char, s: string)
    requires IsDigit(c)
    requires forall i | 0 <= i < |s| :: IsDigit(s[i])
    ensures DigitsValue([c] + s) == DigitValue(c) * Pow10(|s|) + DigitsValue(s)
  {
    if s != [] {
      var t, init := [c] + s, s[..|s| - 1];
      assert t[..|t| - 1] == [c] + init;
      assert t[|t| - 1] == s[|s| - 1];
      DigitsValueOfCons(c, init);
      var a, p, d := DigitValue(c), Pow10(|init|), DigitValue(s[|s| - 1]);
      MulAssoc10(a, p);
      assert DigitsValue(t) == 10 * (a * p + DigitsValue(init)) + d;
    }
  }

  lemma MulAssoc10(a: int, p: int)
    ensures 10 * (a * p) == a * (10 * p)
  {
  }

  /** A string of `k` digits denotes less than ten to the `k`. */
  lemma {:induction false} DigitsValueBound(s: string)
    requires forall i | 0 <= i < |s| :: IsDigit(s[i])
    ensures DigitsValue(s) < Pow10(|s|)
  {
    if s != [] {
      DigitsValueBound(s[..|s| - 1]);
    }
  }
}

=== FILE: vocabulary.dfy ===
/** The IRIs of the application vocabulary and the standard ones it uses. */
module Vocabulary {

  const Namespace: string := "urn:story-adventure:"

  const Scene: string := Namespace + "Scene"
  const RuleCondition: string := Namespace + "RuleCondition"
  const ConditionProperty: string := Namespace + "condition"
  const To: string := Namespace + "to"
  const Weight: string := Namespace + "weight"

  const RdfNamespace: string := "http://www.w3.org/1999/02/22-rdf-syntax-ns#"
  const RdfsNamespace: string := "http://www.w3.org/2000/01/rdf-schema#"
  const XsdNamespace: string := "http://www.w3.org/2001/XMLSchema#"

  const RdfType: string := RdfNamespace + "type"
  const RdfsClass: string := RdfsNamespace + "Class"
  const XsdDouble: string := XsdNamespace + "double"

  /** The properties used on scene quads are pairwise different IRIs. */
  lemma PropertiesDistinct()
    ensures RdfType != To && RdfType != Weight && RdfType != ConditionProperty
    ensures To != Weight && To != ConditionProperty && Weight != ConditionProperty
  {
    assert |Namespace| == 20;
    assert RdfNamespace[0] == 'h' && Namespace[0] == 'u';
    assert RdfType[0] == RdfNamespace[0];
    assert To[0] == Namespace[0] && Weight[0] == Namespace[0] && ConditionProperty[0] == Namespace[0];
    assert RdfType[0] != To[0] && RdfType[0] != Weight[0] && RdfType[0] != ConditionProperty[0];
    assert To[20] != Weight[20] && To[20] != ConditionProperty[20] && Weight[20] != ConditionProperty[20];
  }
}

=== FILE: workspace.dfy ===
/**
  The diagram the editor works on, reduced to what committing edits touches:
  entity and relation data, and canvas items that show either one datum or a
  group of them. The operations here are generic in the kind of data: change
  the data stored under a key, and remove deleted data (dropping single items,
  filtering groups).
*/
module Workspace {
  import opened Sequences
  import opened Rdf

  /** An entity: its IRI, its types and its property values. */
  datatype EntityData = EntityData(id: string, types: seq<string>, properties: map<string, seq<Term>>)

  /** A relation: its type, the IRIs of its ends and its property values. */
  datatype RelationData = RelationData(linkType: string, source: string, target: string, properties: map<string, seq<Term>>)

  /** What identifies a relation. */
  datatype RelationKey = RelationKey(linkType: string, source: string, target: string)

  function KeyOf(d: RelationData): RelationKey {
    RelationKey(d.linkType, d.source, d.target)
  }

  function IriOf(d: EntityData): string {
    d.id
  }

  /** A canvas item: a single element or link showing one datum, or a group
      showing several. `id` is the canvas id, not the data's IRI. A link's
      canvas end elements are not kept. */
  datatype Item<D> = Single(id: string, data: D) | Group(id: string, items: seq<D>)

  datatype Graph = Graph(elements: seq<Item<EntityData>>, links: seq<Item<RelationData>>)

  /** No two canvas items share an id. */
  predicate UniqueIds<D>(xs: seq<Item<D>>) {
    forall i, j | 0 <= i < j < |xs| :: xs[i].id != xs[j].id
  }

  /** `f` applied to every datum, singles and group members alike. */
  function MapItem<D>(x: Item<D>, f: D -> D): Item<D> {
    match x
    case Single(id, d) => Single(id, f(d))
    case Group(id, items) => Group(id, seq(|items|, j requires 0 <= j < |items| => f(items[j])))
  }

  function MapItems<D>(xs: seq<Item<D>>, f: D -> D): seq<Item<D>> {
    seq(|xs|, i requires 0 <= i < |xs| => MapItem(xs[i], f))
  }

  /** The data stored under key `k` replaced by `next`. */
  function ChangeData<D, K(==)>(xs: seq<Item<D>>, key: D -> K, k: K, next: D): seq<Item<D>> {
    MapItems(xs, d => if key(d) == k then next else d)
  }

  /** Changing data keeps every item where it is, with its id and its kind,
      and every group its size; a datum is replaced exactly when its key is
      `k`. */
  lemma ChangeDataSpec<D, K>(xs: seq<Item<D>>, key: D -> K, k: K, next: D)
    ensures |ChangeData(xs, key, k, next)| == |xs|
    ensures forall i | 0 <= i < |xs| ::
      && ChangeData(xs, key, k, next)[i].id == xs[i].id
      && ChangeData(xs, key, k, next)[i].Single? == xs[i].Single?
    ensures forall i | 0 <= i < |xs| && xs[i].Single? ::
      ChangeData(xs, key, k, next)[i].data == if key(xs[i].data) == k then next else xs[i].data
    ensures forall i | 0 <= i < |xs| && xs[i].Group? ::
      && |ChangeData(xs, key, k, next)[i].items| == |xs[i].items|
      && forall j | 0 <= j < |xs[i].items| ::
           ChangeData(xs, key, k, next)[i].items[j] == if key(xs[i].items[j]) == k then next else xs[i].items[j]
  {
  }

  /** Afterwards nothing is stored under `k` except `next` itself. */
  lemma ChangeDataLeavesOnlyNext<D, K>(xs: seq<Item<D>>, key: D -> K, k: K, next: D)
    ensures forall i | 0 <= i < |ChangeData(xs, key, k, next)| && ChangeData(xs, key, k, next)[i].Single? ::
      key(ChangeData(xs, key, k, next)[i].data) == k ==> ChangeData(xs, key, k, next)[i].data == next
    ensures forall i | 0 <= i < |ChangeData(xs, key, k, next)| && ChangeData(xs, key, k, next)[i].Group? ::
      forall d | d in ChangeData(xs, key, k, next)[i].items :: key(d) == k ==> d == next
  {
    ChangeDataSpec(xs, key, k, next);
  }

  /** A change under a key nothing is stored under changes nothing. */
  lemma ChangeDataAbsentKey<D, K>(xs: seq<Item<D>>, key: D -> K, k: K, next: D)
    requires forall i | 0 <= i < |xs| && xs[i].Single? :: key(xs[i].data) != k
    requires forall i | 0 <= i < |xs| && xs[i].Group? :: forall d | d in xs[i].items :: key(d) != k
    ensures ChangeData(xs, key, k, next) == xs
  {
    var ys := ChangeData(xs, key, k, next);
    forall i | 0 <= i < |xs|
      ensures ys[i] == xs[i]
    {
      if xs[i].Group? {
        assert ys[i].items == xs[i].items;
      }
    }
  }

  /** `ys` has the layout of `xs`, and every datum of `xs` stored under `k`
      has been replaced, in place, by `v`. */
  ghost predicate WrittenAt<D, K>(xs: seq<Item<D>>, ys: seq<Item<D>>, key: D -> K, k: K, v: D) {
    && |ys| == |xs|
    && (forall i | 0 <= i < |xs| :: ys[i].id == xs[i].id && ys[i].Single? == xs[i].Single?)
    && (forall i | 0 <= i < |xs| && xs[i].Single? && key(xs[i].data) == k :: ys[i].data == v)
    && (forall i | 0 <= i < |xs| && xs[i].Group? :: |ys[i].items| == |xs[i].items|)
    && (forall i, j | 0 <= i < |xs| && xs[i].Group? && 0 <= j < |xs[i].items| && key(xs[i].items[j]) == k ::
          ys[i].items[j] == v)
  }

  /** A change writes its data wherever its key was stored. */
  lemma ChangeDataWrites<D, K>(xs: seq<Item<D>>, key: D -> K, k: K, next: D)
    ensures WrittenAt(xs, ChangeData(xs, key, k, next), key, k, next)
  {
    ChangeDataSpec(xs, key, k, next);
  }

  /** A later change under another key than that of the written data does
      not overwrite it. */
  lemma WrittenAtAfterChange<D, K>(xs: seq<Item<D>>, ys: seq<Item<D>>, key: D -> K, k: K, v: D, k2: K, next: D)
    requires WrittenAt(xs, ys, key, k, v)
    requires key(v) != k2
    ensures WrittenAt(xs, ChangeData(ys, key, k2, next), key, k, v)
  {
    ChangeDataSpec(ys, key, k2, next);
  }

  /** An earlier change under another key leaves the data stored under `k`
      where it was. */
  lemma WrittenAtBeforeChange<D, K>(xs: seq<Item<D>>, key: D -> K, k2: K, next: D, zs: seq<Item<D>>, k: K, v: D)
    requires k2 != k
    requires WrittenAt(ChangeData(xs, key, k2, next), zs, key, k, v)
    ensures WrittenAt(xs, zs, key, k, v)
  {
    ChangeDataSpec(xs, key, k2, next);
  }

  /** Whether an item shows no deleted datum. */
  predicate Live<D>(x: Item<D>, deleted: D -> bool) {
    match x
    case Single(_, d) => !deleted(d)
    case Group(_, items) => forall j | 0 <= j < |items| :: !deleted(items[j])
  }

  /** The members that are not deleted, in order. */
  function Survivors<D(!new)>(items: seq<D>, deleted: D -> bool): seq<D> {
    Filter(items, d => !deleted(d))
  }

  /** A group that shows a deleted datum keeps only the others, in order;
      any other item is left as it is. */
  function PruneGroup<D(!new)>(x: Item<D>, deleted: D -> bool): Item<D> {
    if x.Group? && exists j | 0 <= j < |x.items| :: deleted(x.items[j])
    then Group(x.id, Survivors(x.items, deleted))
    else x
  }

  /** The canvas ids of the single items whose datum is deleted, in order. */
  function RemovedIds<D>(xs: seq<Item<D>>, deleted: D -> bool): (ids: seq<string>)
    ensures forall i | 0 <= i < |xs| && xs[i].Single? && deleted(xs[i].data) :: xs[i].id in ids
    ensures forall id | id in ids :: exists i | 0 <= i < |xs| :: xs[i].id == id && xs[i].Single? && deleted(xs[i].data)
  {
    if xs == [] then []
    else
      var rest := RemovedIds(xs[1..], deleted);
      assert forall i | 1 <= i < |xs| :: xs[i] == xs[1..][i - 1];
      if xs[0].Single? && deleted(xs[0].data) then [xs[0].id] + rest else rest
  }

  /** The items without the ones whose canvas id is listed. */
  function RemoveIds<D(!new)>(xs: seq<Item<D>>, ids: seq<string>): seq<Item<D>> {
    Filter(xs, (x: Item<D>) => x.id !in ids)
  }

  /** Removing deleted data: groups are pruned first, then the single items
      that show deleted data are removed by canvas id. Nothing deleted
      survives: no single item with a deleted datum and no group member that
      is deleted, and every survivor is an input item, a group without its deleted members. */
  function Prune<D(!new)>(xs: seq<Item<D>>, deleted: D -> bool): (r: seq<Item<D>>)
    ensures |r| <= |xs|
    ensures forall y | y in r :: Live(y, deleted)
    ensures forall y | y in r :: exists i | 0 <= i < |xs| :: y == PruneGroup(xs[i], deleted)
  {
    PrunedAreLive(xs, deleted);
    RemoveIds(seq(|xs|, i requires 0 <= i < |xs| => PruneGroup(xs[i], deleted)), RemovedIds(xs, deleted))
  }

  /** What survives removal when ids are unique: every item except the single
      items showing deleted data. */
  predicate Kept<D>(x: Item<D>, deleted: D -> bool) {
    !(x.Single? && deleted(x.data))
  }

  lemma PruneGroupSpec<D(!new)>(x: Item<D>, deleted: D -> bool)
    ensures PruneGroup(x, deleted).id == x.id
    ensures PruneGroup(x, deleted).Single? == x.Single?
    ensures x.Single? ==> PruneGroup(x, deleted) == x
    ensures x.Group? ==> PruneGroup(x, deleted).items == Survivors(x.items, deleted)
    ensures Live(x, deleted) ==> PruneGroup(x, deleted) == x
  {
    if x.Group? && !exists j | 0 <= j < |x.items| :: deleted(x.items[j]) {
      FilterUnchangedIff(x.items, d => !deleted(d));
    }
  }

  lemma PrunedAreLive<D(!new)>(xs: seq<Item<D>>, deleted: D -> bool)
    ensures forall y | y in RemoveIds(seq(|xs|, i requires 0 <= i < |xs| => PruneGroup(xs[i], deleted)), RemovedIds(xs, deleted)) ::
      Live(y, deleted) && exists i | 0 <= i < |xs| :: y == PruneGroup(xs[i], deleted)
  {
    var pruned := seq(|xs|, i requires 0 <= i < |xs| => PruneGroup(xs[i], deleted));
    var ids := RemovedIds(xs, deleted);
    forall y | y in RemoveIds(pruned, ids)
      ensures Live(y, deleted) && exists i | 0 <= i < |xs| :: y == PruneGroup(xs[i], deleted)
    {
      assert y in pruned && y.id !in ids;
      var i :| 0 <= i < |xs| && pruned[i] == y;
      assert y == PruneGroup(xs[i], deleted);
      PruneGroupSpec(xs[i], deleted);
      if y.Group? {
        assert forall d | d in y.items :: !deleted(d);
      }
    }
  }

  /** With unique canvas ids, removal takes away exactly the single items
      showing deleted data, keeps every group (pruned, possibly empty) and
      every other single item unchanged, all in their original order. */
  lemma PruneUnique<D(!new)>(xs: seq<Item<D>>, deleted: D -> bool)
    requires UniqueIds(xs)
    ensures Prune(xs, deleted)
      == Filter(seq(|xs|, i requires 0 <= i < |xs| => PruneGroup(xs[i], deleted)), x => Kept(x, deleted))
  {
    var pruned := seq(|xs|, i requires 0 <= i < |xs| => PruneGroup(xs[i], deleted));
    var ids := RemovedIds(xs, deleted);
    forall i | 0 <= i < |pruned|
      ensures (pruned[i].id !in ids) == Kept(pruned[i], deleted)
    {
      PruneGroupSpec(xs[i], deleted);
      if pruned[i].id in ids {
        var j :| 0 <= j < |xs| && xs[j].id == pruned[i].id && xs[j].Single? && deleted(xs[j].data);
        assert j == i;
      }
    }
    FilterCongruent(pruned, (x: Item<D>) => x.id !in ids, x => Kept(x, deleted));
  }

  /** With unique canvas ids, every group survives, holding its members that
      are not deleted, and so does every single item whose datum is not
      deleted. */
  lemma PruneKeepsGroupsAndLive<D(!new)>(xs: seq<Item<D>>, deleted: D -> bool)
    requires UniqueIds(xs)
    ensures forall i | 0 <= i < |xs| && xs[i].Group? :: Group(xs[i].id, Survivors(xs[i].items, deleted)) in Prune(xs, deleted)
    ensures forall i | 0 <= i < |xs| && xs[i].Single? && !deleted(xs[i].data) :: xs[i] in Prune(xs, deleted)
  {
    var pruned := seq(|xs|, i requires 0 <= i < |xs| => PruneGroup(xs[i], deleted));
    PruneUnique(xs, deleted);
    forall i | 0 <= i < |xs|
      ensures pruned[i] in Prune(xs, deleted) <==> Kept(pruned[i], deleted)
      ensures xs[i].Group? ==> pruned[i] == Group(xs[i].id, Survivors(xs[i].items, deleted))
      ensures xs[i].Single? ==> pruned[i] == xs[i]
    {
      PruneGroupSpec(xs[i], deleted);
    }
  }

  /** With unique canvas ids, data written in place survives removal unless
      it is itself deleted: each single item that held data under `k` shows
      `v`, and each group that held some still holds `v`. */
  lemma PruneShowsWritten<D(!new), K>(xs: seq<Item<D>>, ys: seq<Item<D>>, key: D -> K, k: K, v: D, deleted: D -> bool)
    requires UniqueIds(xs) && WrittenAt(xs, ys, key, k, v) && !deleted(v)
    ensures forall p | 0 <= p < |xs| && xs[p].Single? && key(xs[p].data) == k :: Single(xs[p].id, v) in Prune(ys, deleted)
    ensures forall p, j | 0 <= p < |xs| && xs[p].Group? && 0 <= j < |xs[p].items| && key(xs[p].items[j]) == k ::
      exists y | y in Prune(ys, deleted) :: y.Group? && y.id == xs[p].id && v in y.items
  {
    assert UniqueIds(ys);
    PruneKeepsGroupsAndLive(ys, deleted);
    forall p | 0 <= p < |xs| && xs[p].Single? && key(xs[p].data) == k
      ensures Single(xs[p].id, v) in Prune(ys, deleted)
    {
      assert ys[p] == Single(xs[p].id, v);
    }
    forall p, j | 0 <= p < |xs| && xs[p].Group? && 0 <= j < |xs[p].items| && key(xs[p].items[j]) == k
      ensures exists y | y in Prune(ys, deleted) :: y.Group? && y.id == xs[p].id && v in y.items
    {
      var y := Group(ys[p].id, Survivors(ys[p].items, deleted));
      assert ys[p].items[j] == v;
      assert v in y.items;
    }
  }

  /** Removing deleted data a second time changes nothing. */
  lemma PruneIdempotent<D(!new)>(xs: seq<Item<D>>, deleted: D -> bool)
    ensures Prune(Prune(xs, deleted), deleted) == Prune(xs, deleted)
  {
    PruneOfLive(Prune(xs, deleted), deleted);
  }

  /** Items that show no deleted datum are left exactly as they are. */
  lemma PruneOfLive<D(!new)>(xs: seq<Item<D>>, deleted: D -> bool)
    requires forall y | y in xs :: Live(y, deleted)
    ensures Prune(xs, deleted) == xs
  {
    var pruned := seq(|xs|, i requires 0 <= i < |xs| => PruneGroup(xs[i], deleted));
    assert pruned == xs by {
      forall i | 0 <= i < |xs|
        ensures pruned[i] == xs[i]
      {
        assert Live(xs[i], deleted);
      }
    }
    RemovedIdsOfLive(xs, deleted);
    FilterUnchangedIff(xs, (x: Item<D>) => x.id !in []);
  }

  lemma {:induction false} RemovedIdsOfLive<D>(xs: seq<Item<D>>, deleted: D -> bool)
    requires forall y | y in xs :: Live(y, deleted)
    ensures RemovedIds(xs, deleted) == []
  {
    if xs != [] {
      assert Live(xs[0], deleted);
      assert forall y | y in xs[1..] :: y in xs;
      RemovedIdsOfLive(xs[1..], deleted);
    }
  }
}

=== FILE: wrappers.dfy ===
/** Failure-compatible Option and Result types used throughout the model. */
module Wrappers {

  datatype Option<+T> = None | Some(value: T) {
    predicate IsFailure() {
      None?
    }

    function PropagateFailure<U>(): Option<U>
      requires None?
    {
      None
    }

    function Extract(): T
      requires Some?
    {
      value
    }
  }

  datatype Result<+R, +E> = Success(value: R) | Failure(error: E) {
    predicate IsFailure() {
      Failure?
    }

    function PropagateFailure<U>(): Result<U, E>
      requires Failure?
    {
      Failure(error)
    }

    function Extract(): R
      requires Success?
    {
      value
    }
  }
}
